=== FILE: README.md ===
# Only: frequency-gated execution, modelled in Dafny

`Only` runs a block of code according to a frequency policy:
- once ever;
- once per process;
- when a time interval has passed since the last run;
- when a predicate holds;
- on every n-th evaluation.

The gate reads the state the policy needs from a persistent store and a session store, decides, runs the block if the decision is true, and then updates the stores so the next decision is correct. This project models that core in three revisions:

- **Current revision** (`Only`, `OnlyFrequency`, `OnlySessionStorage`). Modules `Policy`, `Storage`, `Gate`, `GateProperties`, `SessionCopy`.
- **Internal-name revision** (`ExecuteOnly`, `Frequency`, `SessionStorage1`). Its logic is the same, so it shares `Gate`. Module `InternalRevision` adds only its default profile `"com.executeOnly"` and what follows from it.
- **Older revision** (`ExecuteOnly/Sources/ExecuteOnly/ExecuteOnly.swift`). `RunOnce/lib/RunOnce.swift` is the same code line for line. Here the whole profile is one record (`ExecuteOnlyModel`), `any`/`all` combine policies, and `every` fires when the count plus one equals `times`. Modules `Legacy`, `LegacyProperties`.

How the model represents the source:
- Stores are `map<string, Value>`, where a value is an `Int` or a date.
- A `Tracked` store also logs every get and set, the way the tests' `MockStorage` does. This turns the tests' expected action lists into lemmas.
- Time is whole nanoseconds since the epoch. The clock (`dateProvider` / `Date()`) is the parameter `now`.
- `DispatchTimeInterval` converts to nanoseconds exactly (`TimeInterval.ToNanos`).
- The `if` predicate is the boolean it returns when the gate calls it.
- Swift `Int` is `Runtime.Int64`.
- Swift's runtime traps are results, `Outcome.Trapped`. Two can happen: `timesExecuted + 1` overflowing at `Int.max`, and `% times` with `times == 0`. The `% 0` trap only happens once the counter is non-zero, because `timesExecuted == 0 ||` short-circuits. So `every(k, times: 0)` runs once and then traps.
- Swift's truncating `%` is `Runtime.Remainder`. It is zero exactly when Dafny's Euclidean `%` is.

Behaviour worth knowing, where the code may surprise a reader:
- `ifTimePassed(k, .never)`: `.never` converts to 0 seconds, so the policy runs at any instant strictly after the recorded one. It does not stop firing for good.
- `every`'s update reads the counter a second time rather than reusing the value the decision read. The trace is get, get, set.
- `ifTimePassed` records a fresh `dateProvider()` call, not the instant the decision used. The model has one `now` per evaluation (see Left out).
- Only `times == 0` traps. A negative `times` works like its absolute value.
- Composite keys `profile + "." + key` are distinct for the same key in two profiles, and for two keys in one profile. Two different (profile, key) pairs can still collide when a profile contains a dot (`GateProperties.DottedProfilesCanCollide`). They cannot collide when neither profile contains a dot (`GateProperties.CompositeKeyInjective`).

## Model

| member | source | states |
|---|---|---|
| `Runtime.Remainder` | Sources/Only/Only.swift:66 | Swift's truncating remainder: smaller than the divisor in magnitude, takes the dividend's sign, and is zero exactly when the divisor divides the dividend |
| `Runtime.TruncatedQuotient` | Sources/Only/Only.swift:66 | the remainder pairs with a quotient `q` so that `a == b * q + r`; with the sign and magnitude bounds, that fixes `r` to Swift's value; `q` is non-negative for a non-negative dividend over a positive divisor and non-positive for a non-positive one |
| `TimeInterval.ToSeconds` | Sources/Only/Only.swift:107-128 | the interval in seconds: seconds as given, milliseconds times 0.001, microseconds times 0.000001, nanoseconds times 0.000000001, `.never` zero |
| `TimeInterval.LegacyToNanos` | ExecuteOnly/Sources/ExecuteOnly/ExecuteOnly.swift:113-134 | the older conversion has no value exactly for `.never`; with `?? 0` applied it equals the current conversion for every interval |
| `TimeInterval.OneSecondSpellings` | Tests/OnlyTests/OnlyTests.swift:151-156 | `.seconds(s)`, `.milliseconds(1000 s)`, `.microseconds(10^6 s)`, `.nanoseconds(10^9 s)` are the same span; the four spellings of one second are 1.0 s |
| `Storage.Fresh` | Sources/ExecuteOnly/Storage.swift:42-44 | a freshly built session store returns nil from `getInt` and `getDate` for every key |
| `Storage.SetInt` | Sources/Only/Storage.swift:49-59 | after `set(v, k)`, `getInt(k)` is `v`, `getDate(k)` is nil, and every other key holds what it held |
| `Storage.SetDate` | Sources/ExecuteOnly/Storage.swift:50-60 | after `set(d, k)`, `getDate(k)` is `d`, `getInt(k)` is nil, and every other key holds what it held |
| `Storage.SetThenGet` | Sources/Only/Storage.swift:42-63 | set-then-get round trips for both kinds; a key holds one value at a time, so the later set hides the other kind; other keys read as before |
| `Gate.CompositeKey` | Sources/Only/Only.swift:102-104 | the slot key is the profile, then one `.`, then the key's raw value |
| `Gate.ShouldExecute` | Sources/Only/Only.swift:53-68 | the decision per policy; it traps exactly when `every` finds a non-zero counter that is `Int.max` or has `times == 0`; reads never change store contents; `if` makes no call, `oncePerSession` one session `getInt`, `once`/`every` one persistent `getInt`, `ifTimePassed` one persistent `getDate` |
| `Gate.UpdateKeysIfNeeded` | Sources/Only/Only.swift:70-100 | a skipped `once`/`ifTimePassed`/`if`/`oncePerSession` writes nothing; `if` never writes; on a run `once` sets persistent 1, `ifTimePassed` sets persistent date `now`, `oncePerSession` sets session 1; `every` always re-reads the counter `c` and sets `c + 1`, trapping only at `Int.max` |
| `Gate.Evaluate` | Sources/Only/Only.swift:34-51 | the block runs iff the decision is true, and the update sees exactly that outcome; only the policy's own composite key changes, in either store; per policy, the exact store contents and call log afterwards |
| `GateProperties.OnceRunsAtMostOnce` | Sources/Only/Only.swift:55-90 | over any number of evaluations `once` runs at most once, on the first and only if no `Int` was stored; the log is get, set 1, then gets only; the session store is untouched |
| `GateProperties.OncePerSessionRunsOncePerSession` | Sources/Only/Only.swift:62-95 | the same for `oncePerSession` against the session store; the persistent store is never called |
| `GateProperties.SessionRestartRunsAgain` | Sources/Only/Storage.swift:44-47 | after any history, an empty session store (a new process) makes `oncePerSession` run again |
| `GateProperties.EveryCountsEvaluations` | Sources/Only/Only.swift:64-98 | from counter `c0`, evaluation `i` runs iff `c0 + i == 0` or `times` divides `c0 + i + 1`; the counter ends at `c0 + n`, run or not; the log is get, get, set `c0 + i + 1` per evaluation; no trap while below `Int.max` |
| `GateProperties.EveryFromAbsentCounter` | Sources/Only/Only.swift:64-66 | from an absent counter the k-th evaluation runs iff k = 1 or `times` divides k, and afterwards the counter reads k |
| `GateProperties.ElapsedBoundary` | Sources/Only/Only.swift:59-61 | with recorded date d, `ifTimePassed` runs iff d + interval < now, strictly (not at the boundary); with `.never`, iff d < now; a run records `now`, a skip keeps d |
| `GateProperties.IfNeverTouchesStores` | Sources/Only/Only.swift:57-93 | over any number of evaluations `if` runs exactly when the predicate holds, and neither store is read or written |
| `GateProperties.SlotIsolation` | Sources/Only/Only.swift:87-104 | evaluating a policy on one slot changes neither the decision nor the trapping of a policy on another slot |
| `GateProperties.DistinctKeysDistinctSlots` | Sources/Only/Only.swift:102-104 | within one profile, distinct keys address distinct slots |
| `GateProperties.DistinctProfilesDistinctSlots` | Sources/ExecuteOnly/ExecuteOnly.swift:111-113 | the same key in distinct profiles addresses distinct slots |
| `GateProperties.CompositeKeyInjective` | Sources/Only/Only.swift:102-104 | when neither profile contains a `.`, equal composite keys mean equal profiles and equal keys |
| `GateProperties.DottedProfilesCanCollide` | Sources/Only/Only.swift:102-104 | ("a.b", "c") and ("a", "b.c") share a slot: without the dot-free condition, composite keys are not injective |
| `GateProperties.RunOnceScenario` | Tests/OnlyTests/OnlyTests.swift:78-104 | two `once` calls in profile "aris" run once; the persistent log is get, set 1, get on "aris.key"; the session store is never used |
| `GateProperties.OncePerSessionScenario` | Tests/OnlyTests/OnlyTests.swift:206-231 | two `oncePerSession` calls run once; the session log is get, set 1, get on "com.execute.only.key"; the persistent log is empty |
| `GateProperties.EveryFourScenario` | Tests/OnlyTests/OnlyTests.swift:233-290 | five `every(times: 4)` calls run on the 1st and 4th; the log is get, get, set n for n = 1..5; the session log is empty |
| `GateProperties.IfTimePassedScenario` | Tests/OnlyTests/OnlyTests.swift:158-204 | for all four spellings of one second, calls at t0, t0 + 0.95 s and t0 + 1.01 s run, skip, run; the log is get, set t0, get, get, set t0 + 1.01 s; the final date is t0 + 1.01 s |
| `SessionCopy.EvaluateOnSessionCopy` | Sources/Only/Only.swift:35-50 | with a struct session store the caller's own session value never records a run: `oncePerSession` decides only from the value passed in and leaves the persistent store as it was |
| `SessionCopy.OncePerSessionRepeats` | Sources/Only/Storage.swift:42-55 | with the default session store, or with one session value passed twice, `oncePerSession` runs on each call |
| `InternalRevision.Evaluate` | Sources/ExecuteOnly/ExecuteOnly.swift:32-59 | with its default profile, no store key outside the "com.executeOnly." namespace changes |
| `InternalRevision.DefaultSlotsDisjoint` | Sources/ExecuteOnly/ExecuteOnly.swift:33-41 | no key under the current revision's default profile equals any key under the internal revision's default profile |
| `InternalRevision.RevisionsDoNotInterfere` | Sources/ExecuteOnly/ExecuteOnly.swift:61-113 | an evaluation by either revision under its default profile changes no decision, and no trap, of the other revision under its own default profile |
| `Legacy.Load` | ExecuteOnly/Sources/ExecuteOnly/ExecuteOnly.swift:42 | absent or undecodable profile data reads as a model with both maps empty; decodable data reads as itself |
| `Legacy.UpdateEach` | ExecuteOnly/Sources/ExecuteOnly/ExecuteOnly.swift:101-107 | the sub-updates of `any`/`all` trap iff some remaining sub-policy holds an `every` whose counter is at `Int.max` |
| `Legacy.UpdateKeys` | ExecuteOnly/Sources/ExecuteOnly/ExecuteOnly.swift:87-110 | the model handed back is the model read, whatever the policy; it traps iff some `every` at any depth finds its counter at `Int.max`, even inside a sub-policy that decided false |
| `Legacy.Evaluate` | RunOnce/lib/RunOnce.swift:35-52 | the block runs and the profile is written iff the decision is true; the log is read, then write only on a run; what is written equals what was read; it traps iff the decision traps or a run's update traps |
| `Legacy.IntendedUpdate` | ExecuteOnly/Sources/ExecuteOnly/ExecuteOnly.swift:90-109 | corrected update: `once`/`ifTimePassed` record `now`, `oncePerSession` records `now` in the session record, `every` adds one (trapping exactly at `Int.max`); for `any`/`all`, every `once`/`ifTimePassed`/`oncePerSession` below them, at any depth, ends recorded at `now`, and every `every` below them ends with a counter above the one read; no counter drops, nothing is removed, and only the policy's own keys change |
| `Legacy.IntendedEach` | RunOnce/lib/RunOnce.swift:101-107 | corrected `any`/`all` update threads the model through every sub-policy in order: each sub-policy from the current index on, at any depth, ends recorded: a `once`/`ifTimePassed` key at `now` in the model, an `oncePerSession` key at `now` in the session record, an `every` counter above the one read; an instant already recorded at `now` stays; no counter drops, keys only grow, and only the sub-policies' keys change |
| `Legacy.IntendedEvaluate` | ExecuteOnly/Sources/ExecuteOnly/ExecuteOnly.swift:43-51 | corrected gate: same decision and log as before; a skip leaves the session record alone; a run writes a model that extends the one read, changed only at the policy's keys; a run records every `once`/`ifTimePassed`/`oncePerSession` of the policy, at any depth, at `now`, leaves every `every` counter of it above the one read, and lets no counter drop |
| `LegacyProperties.AnyIsExistential` | ExecuteOnly/Sources/ExecuteOnly/ExecuteOnly.swift:80-81 | when no sub-policy traps, `any(fs)` decides true iff some sub-policy decides true; `any([])` is false |
| `LegacyProperties.AnyStopsAtFirstTrue` | RunOnce/lib/RunOnce.swift:80-81 | `any` decides true as soon as a sub-policy does, whatever follows it, even a sub-policy that would trap |
| `LegacyProperties.AllIsUniversal` | RunOnce/lib/RunOnce.swift:82-83 | when no sub-policy traps, `all(fs)` decides true iff no sub-policy decides false; `all([])` is true |
| `LegacyProperties.AllEvaluatesEverySubPolicy` | ExecuteOnly/Sources/ExecuteOnly/ExecuteOnly.swift:82-83 | `all` decides every sub-policy before looking at the results, so one trapping sub-policy makes `all` trap |
| `LegacyProperties.IfTimePassedDecision` | RunOnce/lib/RunOnce.swift:72-74 | with no recorded time `ifTimePassed` decides true; otherwise it decides recorded + interval (`.never` as 0) < now |
| `LegacyProperties.EveryDecision` | ExecuteOnly/Sources/ExecuteOnly/ExecuteOnly.swift:77-79 | for any stored count `c` (0 when absent), `every(k, times)` traps exactly when `c` is `Int.max`, and otherwise decides true iff `c + 1 == times` |
| `LegacyProperties.OnceDecisions` | ExecuteOnly/Sources/ExecuteOnly/ExecuteOnly.swift:68-76 | `once` decides true iff the profile's `timeState` has no entry for the key; `oncePerSession` iff the session record's `timeState` has none |
| `LegacyProperties.EveryRuleDiffers` | RunOnce/lib/RunOnce.swift:77-79 | from an empty counter, the older `every(k, times)` decides true iff `times == 1`, where the current revision always runs the first time |
| `LegacyProperties.RunOnceFirstTimeScenario` | RunOnceTests/RunOnceTests.swift:40-55 | a first `once` on empty storage runs, and the store logs a read then a write of "com.executeOnly" |
| `LegacyProperties.RunOnceAlreadyRunScenario` | RunOnceTests/RunOnceTests.swift:57-71 | `once` with its key recorded does not run, and the store logs a single read |
| `LegacyProperties.OnceRepeats` | ExecuteOnly/Sources/ExecuteOnly/ExecuteOnly.swift:90-109 | as written, a run of `once` writes back the model it read, so the next evaluation on the written data runs again |
| `LegacyProperties.IntendedOnceRunsOnce` | ExecuteOnly/Sources/ExecuteOnly/ExecuteOnly.swift:92-93 | with the corrected update, `once` runs and the next evaluation on the written data does not |
| `LegacyProperties.OncePerSessionRepeats` | ExecuteOnly/Sources/ExecuteOnly/ExecuteOnly.swift:95-97 | as written, the session record never changes, so `oncePerSession` runs on every evaluation in one process |
| `LegacyProperties.CombinatorsDropSubUpdates` | ExecuteOnly/Sources/ExecuteOnly/ExecuteOnly.swift:101-107 | as written, the local edit of an `any`/`all` without a saturated counter is the model it read, although each `once` sub-policy's own edit records `now`: the `forEach` drops the sub-updates before the final return |
| `LegacyProperties.EveryNeverStarts` | ExecuteOnly/Sources/ExecuteOnly/ExecuteOnly.swift:77-79 | `every(key, times)` with `times != 1` and no stored counter skips and writes nothing, as written and with the corrected update |
| `LegacyProperties.AllOnceRepeats` | ExecuteOnly/Sources/ExecuteOnly/ExecuteOnly.swift:101-107 | as written, `all([once(a)])` runs, writes back the model it read, and runs again on the next evaluation |
| `LegacyProperties.IntendedAllOnceRunsOnce` | ExecuteOnly/Sources/ExecuteOnly/ExecuteOnly.swift:101-107 | with the corrected update, `all([once(a)])` runs, records `a`, and the next evaluation on the written data does not run |
| `LegacyProperties.IntendedOncePerSessionRunsOnce` | ExecuteOnly/Sources/ExecuteOnly/ExecuteOnly.swift:76-97 | with the corrected update, `oncePerSession` runs once and the next evaluation with the updated session record does not |

## Left out

- The `UserDefaults` adapters (`Sources/Only/Storage.swift:20-39`, `Sources/ExecuteOnly/Storage.swift:20-39`) are platform persistence. They also convert dates to floating-point seconds. Every store here behaves like the in-memory session store.
- The older revision's JSON encoding and decoding of `ExecuteOnlyModel` is a Foundation codec. Stored data is `Legacy.ProfileData`: missing, undecodable, or a decoded model.
- The process-global `SessionStorage.session` of the older revision is a parameter. The as-written gate never changes it.
- Floating-point `Date`/`TimeInterval` arithmetic is not modelled. Times and intervals are exact integer nanoseconds, and the older `timeState` holds nanoseconds rather than `Double` seconds.
- `TimeInterval.ToSeconds`: its contract states exact real arithmetic. The source's `Double(value) * 0.001` and similar products round.
- `Gate.Evaluate`: one clock value `now` serves the whole evaluation. The source calls `dateProvider()` once to decide and again to record, which differs only for a clock that moves during the call.
- `Legacy.Evaluate` and `Legacy.IntendedEvaluate`: one clock value `now` serves the whole evaluation as well. The older revision reads `Date()` to decide `ifTimePassed` (ExecuteOnly/Sources/ExecuteOnly/ExecuteOnly.swift:74) and again for each instant it records (lines 93 and 97); the recorded instant can be later than the one compared.
- The block itself is not modelled. It is a non-throwing `() -> ()`, so the update always follows it. `Evaluation.ran` says whether it was called.
- The tests' `MockStorage` answers from a queue of canned responses. The scenario lemmas use a real store instead, and its answers match the responses the tests queue.
- `debugPrint` and the `@unknown default: fatalError()` branch are not modelled.
- The generic key machinery (`RawRepresentable & CaseIterable`) is not modelled. Keys are their raw strings.
- Thread safety is not modelled: the code is sequential.
- `GateProperties.DistinctKeysDistinctSlots`, `GateProperties.DistinctProfilesDistinctSlots`, `GateProperties.CompositeKeyInjective` and `GateProperties.SlotIsolation` compare keys as sequences of characters. Swift's `String` equality and hashing use Unicode canonical equivalence, so `"caf\u{E9}"` and `"cafe\u{301}"` are one dictionary key there. These lemmas only promise distinct slots for strings that Swift also considers distinct.
- `Gate.Stores` holds the persistent and session stores as two separate values. A caller that passes one class instance as both `persistentStorage` and `sessionStorage` shares a single dictionary between them, and that case is not modelled.

## Findings

| source | as written | input that shows it | evidently intended | confidence | as-written member | corrected member |
|---|---|---|---|---|---|---|
| ExecuteOnly/Sources/ExecuteOnly/ExecuteOnly.swift:90-109 | `updateKeys` edits `mutableStoredKeys` but returns `storedKeys` | `.once(k)` evaluated twice on an empty store | the first run is recorded and the second evaluation does not run | high; not executed | `LegacyProperties.OnceRepeats` | `LegacyProperties.IntendedOnceRunsOnce` |
| ExecuteOnly/Sources/ExecuteOnly/ExecuteOnly.swift:101-107 | `any`/`all` call `updateKeys` on each sub-policy with the same `storedKeys` and discard each result (`newStorage`), so the parent's local edit is already the model it read before line 109 returns it (`LegacyProperties.CombinatorsDropSubUpdates`) | `.all([.once(a)])` evaluated twice on an empty store | each sub-policy's update is kept, so the second evaluation does not run | high; not executed | `LegacyProperties.AllOnceRepeats` | `LegacyProperties.IntendedAllOnceRunsOnce` |
| ExecuteOnly/Sources/ExecuteOnly/ExecuteOnly.swift:95-97 | `oncePerSession` writes to `var session`, a copy of the struct `SessionStorage.session` | `.oncePerSession(k)` evaluated twice in one process | the second evaluation does not run | high; not executed | `LegacyProperties.OncePerSessionRepeats` | `LegacyProperties.IntendedOncePerSessionRunsOnce` |
| ExecuteOnly/Sources/ExecuteOnly/ExecuteOnly.swift:77-79 | `every` runs when the stored counter plus one equals `times`, and the counter advances only on a run (lines 43-51), so from an absent counter the test is `1 == times`; correcting the write-back (`Legacy.IntendedUpdate`) does not change this | `.every(k, 3)` evaluated any number of times on an empty store | the policy runs on every `times`-th evaluation, which the current revision does by counting every evaluation | medium; not executed | `LegacyProperties.EveryNeverStarts` | `GateProperties.EveryFromAbsentCounter` |
| Sources/Only/Only.swift:37-43 | the session store is the struct `OnlySessionStorage`, copied into the `Only` instance, and the default argument builds a new one per call; the internal-name revision does the same with the struct `SessionStorage1` (Sources/ExecuteOnly/ExecuteOnly.swift:43, copied at line 49) | `Only(.oncePerSession(k)) {…}` called twice with the default session store | the second call does not run | high; not executed | `SessionCopy.OncePerSessionRepeats` | `GateProperties.OncePerSessionRunsOncePerSession` |

=== FILE: gate.dfy ===
/**
 The gate of the current revision (`Only`): decide whether the block runs,
 then bring the persistent and session stores in line with what happened.
 The clock is the parameter `now`, in nanoseconds since the epoch.
 */
module Gate {
  import opened Wrappers
  import opened Runtime
  import opened TimeInterval
  import opened Storage
  import opened Policy

  const DefaultProfile: string := "com.execute.only"

  /** `"\(profile).\(key.rawValue)"`: the store key one policy key addresses within a profile. */
  function CompositeKey(profile: string, key: string): (r: string)
    ensures |r| == |profile| + 1 + |key|
    ensures r[..|profile|] == profile
    ensures r[|profile|] == '.'
    ensures r[|profile| + 1..] == key
  {
    profile + "." + key
  }

  /** The persistent store (`UserDefaults` by default) and the session store. */
  datatype Stores = Stores(persistent: Tracked, session: Tracked)

  /** The one store slot a keyed policy addresses. */
  function Slot(profile: string, f: Frequency): string
    requires !f.If?
  {
    CompositeKey(profile, f.key)
  }

  /** The counter `every` works from: the stored `Int`, or 0 when there is none. */
  function Count(profile: string, f: Frequency, st: Stores): Int64
    requires f.Every?
  {
    GetInt(st.persistent.data, Slot(profile, f)).GetOr(0)
  }

  /** Whether `every`'s decision traps: `c + 1` overflows, or the remainder is taken by zero. */
  predicate EveryTraps(profile: string, f: Frequency, st: Stores)
    requires f.Every?
  {
    var c := Count(profile, f, st);
    c != 0 && (c == IntMax || f.times == 0)
  }

  /** What the policy decides on these stores, ignoring how the stores are read. */
  predicate Decides(profile: string, f: Frequency, st: Stores, now: int)
    requires f.Every? ==> !EveryTraps(profile, f, st)
  {
    match f
    case Once(_) => GetInt(st.persistent.data, Slot(profile, f)).None?
    case OncePerSession(_) => GetInt(st.session.data, Slot(profile, f)).None?
    case IfTimePassed(_, limit) =>
      var d := GetDate(st.persistent.data, Slot(profile, f));
      d.None? || d.value + ToNanos(limit) < now
    case If(control) => control
    case Every(_, times) =>
      var c := Count(profile, f, st);
      c == 0 || (c + 1) % times == 0
  }

  /**
   `shouldExecute`: reads the one value the policy needs (none for `If`) and
   decides. Reads never change what a store holds.
   */
  function ShouldExecute(profile: string, f: Frequency, st: Stores, now: int): (r: Outcome<(bool, Stores)>)
    ensures r.Trapped? <==> f.Every? && EveryTraps(profile, f, st)
    ensures r.Done? ==> r.value.0 == Decides(profile, f, st, now)
    ensures r.Done? ==> r.value.1.persistent.data == st.persistent.data
    ensures r.Done? ==> r.value.1.session.data == st.session.data
    ensures r.Done? && f.If? ==> r.value.1 == st
    ensures r.Done? && f.OncePerSession? ==>
      r.value.1.persistent == st.persistent && r.value.1.session.log == st.session.log + [ReadInt(Slot(profile, f))]
    ensures r.Done? && (f.Once? || f.Every?) ==>
      r.value.1.session == st.session && r.value.1.persistent.log == st.persistent.log + [ReadInt(Slot(profile, f))]
    ensures r.Done? && f.IfTimePassed? ==>
      r.value.1.session == st.session && r.value.1.persistent.log == st.persistent.log + [ReadDate(Slot(profile, f))]
  {
    match f
    case Once(key) =>
      var (v, p) := TrackedGetInt(st.persistent, CompositeKey(profile, key));
      Done((v == None, st.(persistent := p)))
    case If(control) =>
      Done((control, st))
    case IfTimePassed(key, limit) =>
      var (v, p) := TrackedGetDate(st.persistent, CompositeKey(profile, key));
      if v.None? then Done((true, st.(persistent := p)))
      else Done((v.value + ToNanos(limit) < now, st.(persistent := p)))
    case OncePerSession(key) =>
      var (v, s) := TrackedGetInt(st.session, CompositeKey(profile, key));
      Done((v == None, st.(session := s)))
    case Every(key, times) =>
      var (v, p) := TrackedGetInt(st.persistent, CompositeKey(profile, key));
      var timesExecuted := v.GetOr(0);
      if timesExecuted == 0 then Done((true, st.(persistent := p)))
      else if timesExecuted == IntMax then Trapped(Overflow)
      else if times == 0 then Trapped(DivisionByZero)
      else Done((Remainder(timesExecuted + 1, times) == 0, st.(persistent := p)))
  }

  /** `updateKeys`: record that the policy's block ran (for `every`: that it was evaluated). */
  function UpdateKeys(profile: string, f: Frequency, st: Stores, now: int): Outcome<Stores>
  {
    match f
    case Once(key) =>
      Done(st.(persistent := TrackedSetInt(st.persistent, 1, CompositeKey(profile, key))))
    case IfTimePassed(key, _) =>
      Done(st.(persistent := TrackedSetDate(st.persistent, now, CompositeKey(profile, key))))
    case If(_) =>
      Done(st)
    case OncePerSession(key) =>
      Done(st.(session := TrackedSetInt(st.session, 1, CompositeKey(profile, key))))
    case Every(key, _) =>
      var (v, p) := TrackedGetInt(st.persistent, CompositeKey(profile, key));
      var times := v.GetOr(0);
      if times == IntMax then Trapped(Overflow)
      else Done(st.(persistent := TrackedSetInt(p, times + 1, CompositeKey(profile, key))))
  }

  /**
   `updateKeysIfNeeded`: a skipped evaluation writes nothing, except that
   `every` counts each evaluation whether or not the block ran. Only the
   policy's own slot changes; `If` changes nothing at all.
   */
  function UpdateKeysIfNeeded(profile: string, f: Frequency, didExecute: bool, st: Stores, now: int): (r: Outcome<Stores>)
    ensures !didExecute && !f.Every? ==> r == Done(st)
    ensures f.If? ==> r == Done(st)
    ensures r.Trapped? <==> f.Every? && Count(profile, f, st) == IntMax
    ensures r.Done? && didExecute && f.Once? ==>
      r.value.session == st.session
      && r.value.persistent.data == SetInt(st.persistent.data, 1, Slot(profile, f))
      && r.value.persistent.log == st.persistent.log + [WriteInt(1, Slot(profile, f))]
    ensures r.Done? && didExecute && f.IfTimePassed? ==>
      r.value.session == st.session
      && r.value.persistent.data == SetDate(st.persistent.data, now, Slot(profile, f))
      && r.value.persistent.log == st.persistent.log + [WriteDate(now, Slot(profile, f))]
    ensures r.Done? && didExecute && f.OncePerSession? ==>
      r.value.persistent == st.persistent
      && r.value.session.data == SetInt(st.session.data, 1, Slot(profile, f))
      && r.value.session.log == st.session.log + [WriteInt(1, Slot(profile, f))]
    ensures r.Done? && f.Every? ==>
      var c := Count(profile, f, st);
      r.value.session == st.session
      && r.value.persistent.data == SetInt(st.persistent.data, c + 1, Slot(profile, f))
      && r.value.persistent.log == st.persistent.log + [ReadInt(Slot(profile, f)), WriteInt(c + 1, Slot(profile, f))]
  {
    match (f, didExecute)
    case (Every(_, _), _) => UpdateKeys(profile, f, st, now)
    case (_, true) => UpdateKeys(profile, f, st, now)
    case (_, false) => Done(st)
  }

  /** The result of one gate evaluation: whether the block ran, and the stores afterwards. */
  datatype Evaluation = Evaluation(ran: bool, stores: Stores)

  /**
   `init(with:…)`: decide, run the block if the decision is true, then update
   once with `didExecute` equal to the decision.
   */
  function Evaluate(profile: string, f: Frequency, st: Stores, now: int): (r: Outcome<Evaluation>)
    ensures r.Trapped? <==> f.Every? && EveryTraps(profile, f, st)
    ensures r.Done? ==> r.value.ran == Decides(profile, f, st, now)
    ensures r.Done? && !f.If? ==>
      AgreeExcept(st.persistent.data, r.value.stores.persistent.data, Slot(profile, f))
      && AgreeExcept(st.session.data, r.value.stores.session.data, Slot(profile, f))
    ensures r.Done? && !r.value.ran && !f.Every? ==>
      r.value.stores.persistent.data == st.persistent.data && r.value.stores.session.data == st.session.data
    ensures f.If? ==> r == Done(Evaluation(f.control, st))
    ensures r.Done? && f.Once? ==>
      var k := Slot(profile, f);
      var e := r.value;
      e.stores.session == st.session
      && e.stores.persistent.data == (if e.ran then SetInt(st.persistent.data, 1, k) else st.persistent.data)
      && e.stores.persistent.log == st.persistent.log + [ReadInt(k)] + (if e.ran then [WriteInt(1, k)] else [])
    ensures r.Done? && f.OncePerSession? ==>
      var k := Slot(profile, f);
      var e := r.value;
      e.stores.persistent == st.persistent
      && e.stores.session.data == (if e.ran then SetInt(st.session.data, 1, k) else st.session.data)
      && e.stores.session.log == st.session.log + [ReadInt(k)] + (if e.ran then [WriteInt(1, k)] else [])
    ensures r.Done? && f.IfTimePassed? ==>
      var k := Slot(profile, f);
      var e := r.value;
      e.stores.session == st.session
      && e.stores.persistent.data == (if e.ran then SetDate(st.persistent.data, now, k) else st.persistent.data)
      && e.stores.persistent.log == st.persistent.log + [ReadDate(k)] + (if e.ran then [WriteDate(now, k)] else [])
    ensures r.Done? && f.Every? ==>
      var k := Slot(profile, f);
      var c := Count(profile, f, st);
      var e := r.value;
      e.stores.session == st.session
      && e.stores.persistent.data == SetInt(st.persistent.data, c + 1, k)
      && e.stores.persistent.log == st.persistent.log + [ReadInt(k), ReadInt(k), WriteInt(c + 1, k)]
  {
    match ShouldExecute(profile, f, st, now)
    case Trapped(t) => Trapped(t)
    case Done((didRun, st1)) =>
      match UpdateKeysIfNeeded(profile, f, didRun, st1, now)
      case Trapped(t) => Trapped(t)
      case Done(st2) => Done(Evaluation(didRun, st2))
  }
}

=== FILE: gate_properties.dfy ===
/**
 Properties of the current gate over many evaluations: how each policy's
 decisions and store writes unfold when the same call is made again and
 again, what the tests' mock store logs, and how slots are kept apart.
 */
module GateProperties {
  import opened Wrappers
  import opened Runtime
  import opened TimeInterval
  import opened Storage
  import opened Policy
  import opened Gate

  /**
   Evaluate the same policy once per instant in `nows`, in order, each call
   seeing the stores the previous one left; the run flags in call order.
   */
  function Repeat(profile: string, f: Frequency, nows: seq<int>, st: Stores): Outcome<(seq<bool>, Stores)>
    decreases |nows|
  {
    if |nows| == 0 then Done(([], st))
    else
      match Repeat(profile, f, nows[..|nows| - 1], st)
      case Trapped(t) => Trapped(t)
      case Done((runs, st1)) =>
        match Evaluate(profile, f, st1, nows[|nows| - 1])
        case Trapped(t) => Trapped(t)
        case Done(e) => Done((runs + [e.ran], e.stores))
  }

  /** `n` copies of one action. */
  function Copies(a: Action, n: nat): (r: seq<Action>)
    ensures |r| == n
    ensures forall i :: 0 <= i < n ==> r[i] == a
  {
    if n == 0 then [] else Copies(a, n - 1) + [a]
  }

  /** The persistent-store log of `n` evaluations of `every` starting from counter `c0`. */
  function EveryTrace(k: string, c0: Int64, n: nat): seq<Action>
    requires c0 + n <= IntMax
  {
    if n == 0 then []
    else EveryTrace(k, c0, n - 1) + CountStep(k, c0 + n)
  }

  /** What one `every` evaluation logs: the decision's read, the update's re-read, and the write of `c`. */
  function CountStep(k: string, c: Int64): seq<Action>
  {
    [ReadInt(k), ReadInt(k), WriteInt(c, k)]
  }

  /** The log of `n` evaluations of a once-style policy whose slot is empty before the first. */
  function OnceTrace(k: string, first: bool, n: nat): seq<Action>
  {
    if n == 0 then []
    else if first then [ReadInt(k), WriteInt(1, k)] + Copies(ReadInt(k), n - 1)
    else Copies(ReadInt(k), n)
  }

  /** One more once-style evaluation appends its read, and on the first run its write, to the log. */
  lemma OnceTraceGrows(log: seq<Action>, k: string, first: bool, n: nat)
    requires n > 0
    ensures log + OnceTrace(k, first, n)
         == log + OnceTrace(k, first, n - 1) + (if first && n == 1 then [ReadInt(k), WriteInt(1, k)] else [ReadInt(k)])
  {
    if first && n > 1 {
      assert Copies(ReadInt(k), n - 1) == Copies(ReadInt(k), n - 2) + [ReadInt(k)];
    }
  }

  /** Appending the flag of evaluation `|runs|` keeps "only the first, and only if the slot was empty". */
  lemma OnceRunsExtend(runs: seq<bool>, ran: bool, first: bool)
    requires forall i :: 0 <= i < |runs| ==> (runs[i] <==> i == 0 && first)
    requires ran <==> |runs| == 0 && first
    ensures forall i :: 0 <= i < |runs| + 1 ==> ((runs + [ran])[i] <==> i == 0 && first)
  {
    forall i | 0 <= i < |runs| + 1
      ensures (runs + [ran])[i] <==> i == 0 && first
    {
      if i < |runs| {
        assert (runs + [ran])[i] == runs[i];
      }
    }
  }

  /** One `once` evaluation: runs iff no `Int` is stored, and leaves one stored either way. */
  lemma OnceStep(profile: string, key: string, st: Stores, now: int)
    ensures var k := CompositeKey(profile, key);
      var first := GetInt(st.persistent.data, k).None?;
      var e := Evaluate(profile, Once(key), st, now);
      && e.Done?
      && (e.value.ran <==> first)
      && e.value.stores.session == st.session
      && e.value.stores.persistent.log == st.persistent.log + (if first then [ReadInt(k), WriteInt(1, k)] else [ReadInt(k)])
      && GetInt(e.value.stores.persistent.data, k).Some?
      && AgreeExcept(st.persistent.data, e.value.stores.persistent.data, k)
  {
  }

  /** One `oncePerSession` evaluation: `OnceStep` against the session store. */
  lemma OncePerSessionStep(profile: string, key: string, st: Stores, now: int)
    ensures var k := CompositeKey(profile, key);
      var first := GetInt(st.session.data, k).None?;
      var e := Evaluate(profile, OncePerSession(key), st, now);
      && e.Done?
      && (e.value.ran <==> first)
      && e.value.stores.persistent == st.persistent
      && e.value.stores.session.log == st.session.log + (if first then [ReadInt(k), WriteInt(1, k)] else [ReadInt(k)])
      && GetInt(e.value.stores.session.data, k).Some?
      && AgreeExcept(st.session.data, e.value.stores.session.data, k)
  {
  }

  /**
   `once`: over any number of evaluations the block runs at most once, on the
   first, and only if no `Int` was stored; the first run stores 1 and later
   evaluations only read. The session store is never touched.
   */
  lemma {:induction false} OnceRunsAtMostOnce(profile: string, key: string, nows: seq<int>, st: Stores)
    ensures var r := Repeat(profile, Once(key), nows, st);
      var k := CompositeKey(profile, key);
      var first := GetInt(st.persistent.data, k).None?;
      && r.Done?
      && |r.value.0| == |nows|
      && (forall i :: 0 <= i < |nows| ==> (r.value.0[i] <==> i == 0 && first))
      && r.value.1.session == st.session
      && r.value.1.persistent.log == st.persistent.log + OnceTrace(k, first, |nows|)
      && (|nows| > 0 ==> GetInt(r.value.1.persistent.data, k).Some?)
      && AgreeExcept(st.persistent.data, r.value.1.persistent.data, k)
  {
    var k := CompositeKey(profile, key);
    var first := GetInt(st.persistent.data, k).None?;
    if |nows| > 0 {
      var n := |nows|;
      OnceRunsAtMostOnce(profile, key, nows[..n - 1], st);
      var prev := Repeat(profile, Once(key), nows[..n - 1], st);
      OnceStep(profile, key, prev.value.1, nows[n - 1]);
      var e := Evaluate(profile, Once(key), prev.value.1, nows[n - 1]);
      var runs := prev.value.0 + [e.value.ran];
      assert Repeat(profile, Once(key), nows, st) == Done((runs, e.value.stores));
      assert e.value.ran <==> n == 1 && first;
      OnceRunsExtend(prev.value.0, e.value.ran, first);
      OnceTraceGrows(st.persistent.log, k, first, n);
    }
  }

  /**
   `oncePerSession`: the same as `once`, but against the session store only;
   the persistent store is never touched.
   */
  lemma {:induction false} OncePerSessionRunsOncePerSession(profile: string, key: string, nows: seq<int>, st: Stores)
    ensures var r := Repeat(profile, OncePerSession(key), nows, st);
      var k := CompositeKey(profile, key);
      var first := GetInt(st.session.data, k).None?;
      && r.Done?
      && |r.value.0| == |nows|
      && (forall i :: 0 <= i < |nows| ==> (r.value.0[i] <==> i == 0 && first))
      && r.value.1.persistent == st.persistent
      && r.value.1.session.log == st.session.log + OnceTrace(k, first, |nows|)
      && (|nows| > 0 ==> GetInt(r.value.1.session.data, k).Some?)
      && AgreeExcept(st.session.data, r.value.1.session.data, k)
  {
    var k := CompositeKey(profile, key);
    var first := GetInt(st.session.data, k).None?;
    if |nows| > 0 {
      var n := |nows|;
      OncePerSessionRunsOncePerSession(profile, key, nows[..n - 1], st);
      var prev := Repeat(profile, OncePerSession(key), nows[..n - 1], st);
      OncePerSessionStep(profile, key, prev.value.1, nows[n - 1]);
      var e := Evaluate(profile, OncePerSession(key), prev.value.1, nows[n - 1]);
      var runs := prev.value.0 + [e.value.ran];
      assert Repeat(profile, OncePerSession(key), nows, st) == Done((runs, e.value.stores));
      assert e.value.ran <==> n == 1 && first;
      OnceRunsExtend(prev.value.0, e.value.ran, first);
      OnceTraceGrows(st.session.log, k, first, n);
    }
  }

  /**
   A new process starts with a fresh session store: however often
   `oncePerSession` ran before, it runs again.
   */
  lemma SessionRestartRunsAgain(profile: string, key: string, nows: seq<int>, st: Stores, now: int)
    ensures var r := Repeat(profile, OncePerSession(key), nows, st);
      r.Done?
      && var e := Evaluate(profile, OncePerSession(key), r.value.1.(session := FreshTracked()), now);
      e.Done? && e.value.ran
  {
    OncePerSessionRunsOncePerSession(profile, key, nows, st);
  }

  /** The rule `every` runs by, for a counter `c` read before the evaluation: the first time, or when `times` divides `c + 1`. */
  predicate EveryRule(c: int, times: int)
    requires times != 0
  {
    c == 0 || (c + 1) % times == 0
  }

  /**
   `every(key, times)`: each evaluation reads the counter `c` the previous one
   left (starting from `c0`), runs iff `c == 0 || (c + 1) % times == 0`, and
   stores `c + 1` whether or not it ran, reading the counter a second time to
   do so. Nothing traps while the counter stays below `Int.max`.
   */
  lemma {:induction false} EveryCountsEvaluations(profile: string, key: string, times: Int64, c0: Int64, nows: seq<int>, st: Stores)
    requires times != 0
    requires Count(profile, Every(key, times), st) == c0
    requires c0 + |nows| <= IntMax
    ensures var r := Repeat(profile, Every(key, times), nows, st);
      var k := CompositeKey(profile, key);
      && r.Done?
      && |r.value.0| == |nows|
      && (forall i :: 0 <= i < |nows| ==> (r.value.0[i] <==> EveryRule(c0 + i, times)))
      && Count(profile, Every(key, times), r.value.1) == c0 + |nows|
      && r.value.1.session == st.session
      && r.value.1.persistent.log == st.persistent.log + EveryTrace(k, c0, |nows|)
      && AgreeExcept(st.persistent.data, r.value.1.persistent.data, k)
  {
    if |nows| > 0 {
      var n := |nows|;
      var f := Every(key, times);
      var k := CompositeKey(profile, key);
      EveryCountsEvaluations(profile, key, times, c0, nows[..n - 1], st);
      var prev := Repeat(profile, f, nows[..n - 1], st);
      EveryStep(profile, key, times, prev.value.1, nows[n - 1]);
      var e := Evaluate(profile, f, prev.value.1, nows[n - 1]);
      var runs := prev.value.0 + [e.value.ran];
      assert Repeat(profile, f, nows, st) == Done((runs, e.value.stores));
      assert Count(profile, f, e.value.stores) == c0 + n;
      EveryRunsExtend(prev.value.0, e.value.ran, c0, times);
      EveryTraceGrows(st.persistent.log, k, c0, n);
    }
  }

  /** Appending the flag of evaluation `|runs|` keeps the run flags following `EveryRule`. */
  lemma EveryRunsExtend(runs: seq<bool>, ran: bool, c0: int, times: int)
    requires times != 0
    requires forall i :: 0 <= i < |runs| ==> (runs[i] <==> EveryRule(c0 + i, times))
    requires ran <==> EveryRule(c0 + |runs|, times)
    ensures forall i :: 0 <= i < |runs| + 1 ==> ((runs + [ran])[i] <==> EveryRule(c0 + i, times))
  {
    forall i | 0 <= i < |runs| + 1
      ensures (runs + [ran])[i] <==> EveryRule(c0 + i, times)
    {
      if i < |runs| {
        assert (runs + [ran])[i] == runs[i];
      }
    }
  }

  /** One more `every` evaluation appends one `CountStep` to the log. */
  lemma EveryTraceGrows(log: seq<Action>, k: string, c0: Int64, n: nat)
    requires n > 0 && c0 + n <= IntMax
    ensures log + EveryTrace(k, c0, n - 1) + CountStep(k, c0 + n) == log + EveryTrace(k, c0, n)
  {
    assert EveryTrace(k, c0, n) == EveryTrace(k, c0, n - 1) + CountStep(k, c0 + n);
  }

  /** One `every` evaluation below `Int.max`: runs on the rule, adds one to the counter, logs one `CountStep`. */
  lemma EveryStep(profile: string, key: string, times: Int64, st: Stores, now: int)
    requires times != 0
    requires Count(profile, Every(key, times), st) < IntMax
    ensures var c := Count(profile, Every(key, times), st);
      var k := CompositeKey(profile, key);
      var e := Evaluate(profile, Every(key, times), st, now);
      && e.Done?
      && (e.value.ran <==> EveryRule(c, times))
      && Count(profile, Every(key, times), e.value.stores) == c + 1
      && e.value.stores.session == st.session
      && e.value.stores.persistent.log == st.persistent.log + CountStep(k, c + 1)
      && AgreeExcept(st.persistent.data, e.value.stores.persistent.data, k)
  {
  }

  /**
   From an absent counter the `k`-th evaluation (counting from 1) runs iff
   `k == 1` or `times` divides `k`, and afterwards the counter reads `k`.
   */
  lemma EveryFromAbsentCounter(profile: string, key: string, times: Int64, nows: seq<int>, st: Stores)
    requires times != 0
    requires GetInt(st.persistent.data, CompositeKey(profile, key)).None?
    requires |nows| <= IntMax
    ensures var r := Repeat(profile, Every(key, times), nows, st);
      && r.Done?
      && |r.value.0| == |nows|
      && (forall i :: 0 <= i < |nows| ==> (r.value.0[i] <==> i + 1 == 1 || (i + 1) % times == 0))
      && (|nows| > 0 ==> GetInt(r.value.1.persistent.data, CompositeKey(profile, key)) == Some(|nows|))
  {
    EveryCountsEvaluations(profile, key, times, 0, nows, st);
  }

  /**
   `ifTimePassed` with a recorded date `d`: the block runs iff `d + limit < now`,
   strictly, so not at the boundary itself; `.never` adds nothing, so it runs
   at any instant after `d`. A run records `now`.
   */
  lemma ElapsedBoundary(profile: string, key: string, limit: Interval, st: Stores, d: int, now: int)
    requires GetDate(st.persistent.data, CompositeKey(profile, key)) == Some(d)
    ensures var r := Evaluate(profile, IfTimePassed(key, limit), st, now);
      && r.Done?
      && (r.value.ran <==> d + ToNanos(limit) < now)
      && (now == d + ToNanos(limit) ==> !r.value.ran)
      && (limit.Never? ==> (r.value.ran <==> d < now))
      && (r.value.ran ==> GetDate(r.value.stores.persistent.data, CompositeKey(profile, key)) == Some(now))
      && (!r.value.ran ==> GetDate(r.value.stores.persistent.data, CompositeKey(profile, key)) == Some(d))
  {
  }

  /** `if`: the block runs iff the predicate holds, and neither store is read or written, however many times. */
  lemma {:induction false} IfNeverTouchesStores(profile: string, control: bool, nows: seq<int>, st: Stores)
    ensures var r := Repeat(profile, If(control), nows, st);
      r.Done? && r.value.1 == st && |r.value.0| == |nows|
      && forall i :: 0 <= i < |nows| ==> r.value.0[i] == control
  {
    if |nows| > 0 {
      IfNeverTouchesStores(profile, control, nows[..|nows| - 1], st);
    }
  }

  /** Two stores that agree everywhere but `k` read alike at any other slot. */
  lemma AgreeExceptReads(a: Store, b: Store, k: string, other: string)
    requires AgreeExcept(a, b, k)
    requires other != k
    ensures GetInt(a, other) == GetInt(b, other)
    ensures GetDate(a, other) == GetDate(b, other)
  {
  }

  /**
   Evaluating one policy never changes what a policy on another slot decides,
   nor whether that policy traps: each composite key is its own state machine.
   */
  lemma SlotIsolation(p1: string, f1: Frequency, p2: string, f2: Frequency, st: Stores, now1: int, now2: int)
    requires !f1.If? && !f2.If? ==> Slot(p1, f1) != Slot(p2, f2)
    requires Evaluate(p1, f1, st, now1).Done?
    ensures var after := Evaluate(p1, f1, st, now1).value.stores;
      && (f2.Every? ==> (EveryTraps(p2, f2, after) <==> EveryTraps(p2, f2, st)))
      && ((f2.Every? ==> !EveryTraps(p2, f2, st)) ==> (Decides(p2, f2, after, now2) <==> Decides(p2, f2, st, now2)))
  {
    var after := Evaluate(p1, f1, st, now1).value.stores;
    if !f1.If? && !f2.If? {
      AgreeExceptReads(st.persistent.data, after.persistent.data, Slot(p1, f1), Slot(p2, f2));
      AgreeExceptReads(st.session.data, after.session.data, Slot(p1, f1), Slot(p2, f2));
    }
  }

  /** Within one profile, distinct keys address distinct slots. */
  lemma DistinctKeysDistinctSlots(profile: string, k1: string, k2: string)
    requires k1 != k2
    ensures CompositeKey(profile, k1) != CompositeKey(profile, k2)
  {
    var c1, c2 := CompositeKey(profile, k1), CompositeKey(profile, k2);
    if |k1| != |k2| {
      assert |c1| != |c2|;
    } else {
      assert c1[|profile| + 1..] != c2[|profile| + 1..];
    }
  }

  /** The same key in distinct profiles addresses distinct slots. */
  lemma DistinctProfilesDistinctSlots(p1: string, p2: string, key: string)
    requires p1 != p2
    ensures CompositeKey(p1, key) != CompositeKey(p2, key)
  {
    var c1, c2 := CompositeKey(p1, key), CompositeKey(p2, key);
    if |p1| != |p2| {
      assert |c1| != |c2|;
    } else {
      assert c1[..|p1|] != c2[..|p2|];
    }
  }

  /**
   Composite keys are injective over profiles without a `.`: the first `.`
   then marks where the profile ends.
   */
  lemma CompositeKeyInjective(p1: string, k1: string, p2: string, k2: string)
    requires forall j :: 0 <= j < |p1| ==> p1[j] != '.'
    requires forall j :: 0 <= j < |p2| ==> p2[j] != '.'
    requires CompositeKey(p1, k1) == CompositeKey(p2, k2)
    ensures p1 == p2 && k1 == k2
  {
    var c := CompositeKey(p1, k1);
    assert p1 == c[..|p1|] == p2;
  }

  /** A profile that contains a `.` can collide with another profile's slot. */
  lemma DottedProfilesCanCollide()
    ensures CompositeKey("a.b", "c") == CompositeKey("a", "b.c")
  {
  }

  /** One more evaluation at the end of a repetition. */
  lemma RepeatSnoc(profile: string, f: Frequency, nows: seq<int>, now: int, st: Stores)
    ensures Repeat(profile, f, nows + [now], st) ==
      match Repeat(profile, f, nows, st)
      case Trapped(t) => Trapped(t)
      case Done((runs, st1)) =>
        match Evaluate(profile, f, st1, now)
        case Trapped(t) => Trapped(t)
        case Done(e) => Done((runs + [e.ran], e.stores))
  {
    assert (nows + [now])[..|nows|] == nows;
  }

  // The test suite's scenarios, as the mock store would log them.

  function EmptyStores(): Stores
  {
    Stores(FreshTracked(), FreshTracked())
  }

  /** Two `once` evaluations in profile "aris": the first runs and stores 1, the second only reads. */
  lemma RunOnceScenario(now1: int, now2: int)
    ensures var r := Repeat("aris", Once("key"), [now1, now2], EmptyStores());
      && r.Done?
      && r.value.0 == [true, false]
      && r.value.1.session == FreshTracked()
      && r.value.1.persistent.log == [ReadInt("aris.key"), WriteInt(1, "aris.key"), ReadInt("aris.key")]
  {
    assert CompositeKey("aris", "key") == "aris.key";
    OnceRunsAtMostOnce("aris", "key", [now1, now2], EmptyStores());
    assert Copies(ReadInt("aris.key"), 1) == [ReadInt("aris.key")];
    assert OnceTrace("aris.key", true, 2) == [ReadInt("aris.key"), WriteInt(1, "aris.key"), ReadInt("aris.key")];
  }

  /**
   Two `oncePerSession` evaluations in the default profile: the session store
   logs read, write 1, read; the persistent store is never called.
   */
  lemma OncePerSessionScenario(now1: int, now2: int)
    ensures var r := Repeat(DefaultProfile, OncePerSession("key"), [now1, now2], EmptyStores());
      && r.Done?
      && r.value.0 == [true, false]
      && r.value.1.persistent.log == []
      && r.value.1.session.log == [ReadInt("com.execute.only.key"), WriteInt(1, "com.execute.only.key"), ReadInt("com.execute.only.key")]
  {
    var k := "com.execute.only.key";
    assert CompositeKey(DefaultProfile, "key") == k;
    OncePerSessionRunsOncePerSession(DefaultProfile, "key", [now1, now2], EmptyStores());
    assert Copies(ReadInt(k), 1) == [ReadInt(k)];
    assert OnceTrace(k, true, 2) == [ReadInt(k), WriteInt(1, k), ReadInt(k)];
  }

  /** The persistent-store log of five `every` evaluations from nothing. */
  lemma EveryTraceFive(k: string)
    ensures EveryTrace(k, 0, 5)
         == CountStep(k, 1) + CountStep(k, 2) + CountStep(k, 3) + CountStep(k, 4) + CountStep(k, 5)
  {
    assert EveryTrace(k, 0, 1) == CountStep(k, 1);
    assert EveryTrace(k, 0, 2) == CountStep(k, 1) + CountStep(k, 2);
    assert EveryTrace(k, 0, 3) == CountStep(k, 1) + CountStep(k, 2) + CountStep(k, 3);
    assert EveryTrace(k, 0, 4) == CountStep(k, 1) + CountStep(k, 2) + CountStep(k, 3) + CountStep(k, 4);
  }

  /**
   `every(key, times: 4)` evaluated five times from nothing: runs on the 1st
   and 4th evaluations, and the counter is written 1, 2, 3, 4, 5, each write
   preceded by two reads; the session store is never called.
   */
  lemma EveryFourScenario(nows: seq<int>)
    requires |nows| == 5
    ensures var r := Repeat(DefaultProfile, Every("key", 4), nows, EmptyStores());
      var k := "com.execute.only.key";
      && r.Done?
      && r.value.0 == [true, false, false, true, false]
      && r.value.1.session.log == []
      && r.value.1.persistent.log
         == CountStep(k, 1) + CountStep(k, 2) + CountStep(k, 3) + CountStep(k, 4) + CountStep(k, 5)
  {
    assert CompositeKey(DefaultProfile, "key") == "com.execute.only.key";
    EveryFourFromEmpty(DefaultProfile, "key", nows);
  }

  /** `EveryFourScenario` for any profile and key. */
  lemma EveryFourFromEmpty(profile: string, key: string, nows: seq<int>)
    requires |nows| == 5
    ensures var r := Repeat(profile, Every(key, 4), nows, EmptyStores());
      var k := CompositeKey(profile, key);
      && r.Done?
      && r.value.0 == [true, false, false, true, false]
      && r.value.1.session.log == []
      && r.value.1.persistent.log
         == CountStep(k, 1) + CountStep(k, 2) + CountStep(k, 3) + CountStep(k, 4) + CountStep(k, 5)
  {
    var st := EmptyStores();
    assert st.session.log == [] && st.persistent.log == [];
    EveryCountsEvaluations(profile, key, 4, 0, nows, st);
    EveryTraceFive(CompositeKey(profile, key));
    EveryFourRuns(Repeat(profile, Every(key, 4), nows, st).value.0);
  }

  /** Five evaluations of `every(times: 4)` from a zero counter run exactly on the 1st and 4th. */
  lemma EveryFourRuns(runs: seq<bool>)
    requires |runs| == 5
    requires forall i :: 0 <= i < |runs| ==> (runs[i] <==> EveryRule(0 + i, 4))
    ensures runs == [true, false, false, true, false]
  {
    assert runs[0] && !runs[1] && !runs[2] && runs[3] && !runs[4];
  }

  /**
   `ifTimePassed(key, 1 s)` in any of its four spellings, evaluated at `t0`,
   `t0 + 0.95 s` and `t0 + 1.01 s` from nothing recorded: runs the first and
   third time, and the store logs read, write `t0`, read, read, write `t0 + 1.01 s`.
   */
  lemma IfTimePassedScenario(limit: Interval, t0: int)
    requires limit in {Seconds(1), Milliseconds(1000), Microseconds(1_000_000), Nanoseconds(1_000_000_000)}
    ensures var r := Repeat("aris", IfTimePassed("key", limit), [t0, t0 + 950_000_000, t0 + 1_010_000_000], EmptyStores());
      var k := "aris.key";
      && r.Done?
      && r.value.0 == [true, false, true]
      && r.value.1.session == FreshTracked()
      && GetDate(r.value.1.persistent.data, k) == Some(t0 + 1_010_000_000)
      && r.value.1.persistent.log == [ReadDate(k), WriteDate(t0, k), ReadDate(k), ReadDate(k), WriteDate(t0 + 1_010_000_000, k)]
  {
    assert CompositeKey("aris", "key") == "aris.key";
    IfTimePassedOneSecond("aris", "key", limit, t0);
  }

  /** `IfTimePassedScenario` for any profile, key and one-second interval. */
  lemma IfTimePassedOneSecond(profile: string, key: string, limit: Interval, t0: int)
    requires ToNanos(limit) == NanosPerSecond
    ensures var r := Repeat(profile, IfTimePassed(key, limit), [t0, t0 + 950_000_000, t0 + 1_010_000_000], EmptyStores());
      var k := CompositeKey(profile, key);
      && r.Done?
      && r.value.0 == [true, false, true]
      && r.value.1.session == FreshTracked()
      && GetDate(r.value.1.persistent.data, k) == Some(t0 + 1_010_000_000)
      && r.value.1.persistent.log == [ReadDate(k), WriteDate(t0, k), ReadDate(k), ReadDate(k), WriteDate(t0 + 1_010_000_000, k)]
  {
    var f := IfTimePassed(key, limit);
    var k := CompositeKey(profile, key);
    var st := EmptyStores();
    var e1 := Evaluate(profile, f, st, t0);
    assert e1.Done? && e1.value.ran;
    ElapsedBoundary(profile, key, limit, e1.value.stores, t0, t0 + 950_000_000);
    var e2 := Evaluate(profile, f, e1.value.stores, t0 + 950_000_000);
    ElapsedBoundary(profile, key, limit, e2.value.stores, t0, t0 + 1_010_000_000);
    var e3 := Evaluate(profile, f, e2.value.stores, t0 + 1_010_000_000);
    RepeatSnoc(profile, f, [], t0, st);
    assert [] + [t0] == [t0];
    RepeatSnoc(profile, f, [t0], t0 + 950_000_000, st);
    assert [t0] + [t0 + 950_000_000] == [t0, t0 + 950_000_000];
    RepeatSnoc(profile, f, [t0, t0 + 950_000_000], t0 + 1_010_000_000, st);
    assert [t0, t0 + 950_000_000] + [t0 + 1_010_000_000] == [t0, t0 + 950_000_000, t0 + 1_010_000_000];
  }
}

=== FILE: internal_revision.dfy ===
/**
 The internal-name revision (`ExecuteOnly`, `Frequency`, `SessionStorage1`):
 the same decision, update and composite key as `Only`, so it shares the
 `Gate` model. It differs only in its default profile, "com.executeOnly".
 */
module InternalRevision {
  import opened Storage
  import opened Policy
  import Gate
  import GateProperties

  const DefaultProfile: string := "com.executeOnly"

  /** `s` begins with `prefix`. */
  predicate StartsWith(s: string, prefix: string)
  {
    |prefix| <= |s| && s[..|prefix|] == prefix
  }

  /**
   `ExecuteOnly(frequency) { … }` with the default profile: every store key it
   can change lies in the "com.executeOnly." namespace.
   */
  function Evaluate(f: Frequency, st: Gate.Stores, now: int): (r: Runtime.Outcome<Gate.Evaluation>)
    ensures r.Done? ==> forall k :: !StartsWith(k, DefaultProfile + ".") ==>
      && GetInt(r.value.stores.persistent.data, k) == GetInt(st.persistent.data, k)
      && GetDate(r.value.stores.persistent.data, k) == GetDate(st.persistent.data, k)
      && GetInt(r.value.stores.session.data, k) == GetInt(st.session.data, k)
      && GetDate(r.value.stores.session.data, k) == GetDate(st.session.data, k)
  {
    SlotInNamespace(f);
    Gate.Evaluate(DefaultProfile, f, st, now)
  }

  /** The slot a keyed policy addresses under the default profile lies in its namespace. */
  lemma SlotInNamespace(f: Frequency)
    ensures !f.If? ==> StartsWith(Gate.Slot(DefaultProfile, f), DefaultProfile + ".")
  {
    if !f.If? {
      var slot := Gate.Slot(DefaultProfile, f);
      assert slot[..|DefaultProfile| + 1] == slot[..|DefaultProfile|] + [slot[|DefaultProfile|]];
    }
  }

  /**
   The two revisions' default profiles never share a slot, whatever the keys,
   so both can use the same persistent store side by side.
   */
  lemma DefaultSlotsDisjoint(k1: string, k2: string)
    ensures Gate.CompositeKey(Gate.DefaultProfile, k1) != Gate.CompositeKey(DefaultProfile, k2)
  {
    var a := Gate.CompositeKey(Gate.DefaultProfile, k1);
    var b := Gate.CompositeKey(DefaultProfile, k2);
    assert a[11] == Gate.DefaultProfile[11] == '.';
    assert b[11] == DefaultProfile[11] == 'O';
  }

  /**
   An evaluation by the current revision under its default profile changes no
   decision the internal-name revision makes under its own, and vice versa.
   */
  lemma RevisionsDoNotInterfere(f1: Frequency, f2: Frequency, st: Gate.Stores, now1: int, now2: int)
    requires Gate.Evaluate(Gate.DefaultProfile, f1, st, now1).Done?
    requires Gate.Evaluate(DefaultProfile, f2, st, now1).Done?
    ensures var after := Gate.Evaluate(Gate.DefaultProfile, f1, st, now1).value.stores;
      && (f2.Every? ==> (Gate.EveryTraps(DefaultProfile, f2, after) <==> Gate.EveryTraps(DefaultProfile, f2, st)))
      && ((f2.Every? ==> !Gate.EveryTraps(DefaultProfile, f2, st)) ==>
            (Gate.Decides(DefaultProfile, f2, after, now2) <==> Gate.Decides(DefaultProfile, f2, st, now2)))
    ensures var after := Gate.Evaluate(DefaultProfile, f2, st, now1).value.stores;
      && (f1.Every? ==> (Gate.EveryTraps(Gate.DefaultProfile, f1, after) <==> Gate.EveryTraps(Gate.DefaultProfile, f1, st)))
      && ((f1.Every? ==> !Gate.EveryTraps(Gate.DefaultProfile, f1, st)) ==>
            (Gate.Decides(Gate.DefaultProfile, f1, after, now2) <==> Gate.Decides(Gate.DefaultProfile, f1, st, now2)))
  {
    if !f1.If? && !f2.If? {
      DefaultSlotsDisjoint(f1.key, f2.key);
    }
    GateProperties.SlotIsolation(Gate.DefaultProfile, f1, DefaultProfile, f2, st, now1, now2);
    GateProperties.SlotIsolation(DefaultProfile, f2, Gate.DefaultProfile, f1, st, now1, now2);
  }
}

=== FILE: interval.dfy ===
/**
 Dispatch time intervals and their conversion to a span of time. Time is
 measured in whole nanoseconds throughout the model, so every unit converts
 exactly; the source multiplies a `Double` by 0.001, 0.000001 or 0.000000001
 to get seconds.
 */
module TimeInterval {
  import opened Wrappers

  const NanosPerSecond: int := 1_000_000_000

  datatype Interval =
    | Seconds(value: int)
    | Milliseconds(value: int)
    | Microseconds(value: int)
    | Nanoseconds(value: int)
    | Never

  /** The interval in nanoseconds, as the current revisions use it: `.never` counts as no time at all. */
  function ToNanos(i: Interval): int
  {
    match i
    case Seconds(v) => v * NanosPerSecond
    case Milliseconds(v) => v * 1_000_000
    case Microseconds(v) => v * 1_000
    case Nanoseconds(v) => v
    case Never => 0
  }

  /** The interval in seconds, the quantity the source compares dates with. */
  function ToSeconds(i: Interval): (r: real)
    ensures i.Seconds? ==> r == i.value as real
    ensures i.Milliseconds? ==> r == i.value as real * 0.001
    ensures i.Microseconds? ==> r == i.value as real * 0.000001
    ensures i.Nanoseconds? ==> r == i.value as real * 0.000000001
    ensures i.Never? ==> r == 0.0
  {
    ToNanos(i) as real / NanosPerSecond as real
  }

  /**
   The older revision's conversion: `.never` has no length at all, and the
   call site then substitutes zero, which makes it agree with `ToNanos`.
   */
  function LegacyToNanos(i: Interval): (r: Option<int>)
    ensures r.None? <==> i.Never?
    ensures r.GetOr(0) == ToNanos(i)
  {
    match i
    case Never => None
    case _ => Some(ToNanos(i))
  }

  /** The four spellings of one second (and of any whole number of seconds) are the same span. */
  lemma OneSecondSpellings(s: int)
    ensures ToNanos(Seconds(s)) == ToNanos(Milliseconds(1000 * s))
    ensures ToNanos(Seconds(s)) == ToNanos(Microseconds(1_000_000 * s))
    ensures ToNanos(Seconds(s)) == ToNanos(Nanoseconds(1_000_000_000 * s))
    ensures ToSeconds(Seconds(1)) == ToSeconds(Milliseconds(1000)) == ToSeconds(Microseconds(1_000_000))
      == ToSeconds(Nanoseconds(1_000_000_000)) == 1.0
  {
  }
}

=== FILE: legacy.dfy ===
/**
 The older revision (`ExecuteOnly/Sources/ExecuteOnly/ExecuteOnly.swift`,
 copied unchanged as `RunOnce/lib/RunOnce.swift`). The whole profile is one
 record (`ExecuteOnlyModel`) read from and written back to the persistent
 store under the profile name; a process-wide record plays the session store.
 Policies compose with `any` and `all`; `every` fires when the count reaches
 `times` exactly. The clock (`Date()`) is the parameter `now`, in nanoseconds.
 */
module Legacy {
  import opened Wrappers
  import opened Runtime
  import opened TimeInterval

  const DefaultProfile: string := "com.executeOnly"

  datatype Frequency =
    | Once(key: string)
    | OncePerSession(key: string)
    | IfTimePassed(key: string, limit: Interval)
    | If(control: bool)
    | Every(key: string, times: Int64)
    | Any(fs: seq<Frequency>)
    | All(fs: seq<Frequency>)

  /** `ExecuteOnlyModel`: recorded instants for `once`/`ifTimePassed`/`oncePerSession`, counters for `every`. */
  datatype Model = Model(timeState: map<string, int>, valueState: map<string, Int64>)

  function EmptyModel(): Model
  {
    Model(map[], map[])
  }

  /** What the persistent store holds under the profile name. */
  datatype ProfileData = Missing | Undecodable | Encoded(model: Model)

  /** `storage.get(profile) ?? ExecuteOnlyModel()`: absent or undecodable data reads as an empty model. */
  function Load(d: ProfileData): (m: Model)
    ensures d.Encoded? ==> m == d.model
    ensures !d.Encoded? ==> m.timeState == map[] && m.valueState == map[]
  {
    match d
    case Encoded(m) => m
    case _ => EmptyModel()
  }

  /** `bs.firstIndex(of: b)` */
  function FirstIndexOf(bs: seq<bool>, b: bool): (r: Option<nat>)
    ensures r.Some? ==> r.value < |bs| && bs[r.value] == b && forall j :: 0 <= j < r.value ==> bs[j] != b
    ensures r.None? ==> forall j :: 0 <= j < |bs| ==> bs[j] != b
  {
    if |bs| == 0 then None
    else if bs[0] == b then Some(0)
    else match FirstIndexOf(bs[1..], b)
      case None => None
      case Some(j) => Some(j + 1)
  }

  /**
   `shouldExecute`. `any` scans its sub-policies lazily and stops at the first
   that decides true; `all` decides every sub-policy first (an eager `map`).
   Only `every` can trap: `timesExecuted + 1` overflows at `Int.max`.
   */
  function ShouldExecute(f: Frequency, stored: Model, session: Model, now: int): Outcome<bool>
    decreases f, 1
  {
    match f
    case Once(key) => Done(key !in stored.timeState)
    case If(control) => Done(control)
    case IfTimePassed(key, limit) =>
      if key !in stored.timeState then Done(true)
      else Done(stored.timeState[key] + LegacyToNanos(limit).GetOr(0) < now)
    case OncePerSession(key) => Done(key !in session.timeState)
    case Every(key, times) =>
      var timesExecuted := if key in stored.valueState then stored.valueState[key] else 0;
      if timesExecuted == IntMax then Trapped(Overflow)
      else Done(timesExecuted + 1 == times)
    case Any(_) => AnyFrom(f, 0, stored, session, now)
    case All(_) =>
      match DecideEach(f, 0, stored, session, now)
      case Trapped(t) => Trapped(t)
      case Done(bs) => Done(FirstIndexOf(bs, false).None?)
  }

  /** `frequencies.lazy.map{…}.firstIndex(of: true) != nil`, from index `i` on. */
  function AnyFrom(parent: Frequency, i: nat, stored: Model, session: Model, now: int): Outcome<bool>
    requires parent.Any? && i <= |parent.fs|
    decreases parent, 0, |parent.fs| - i
  {
    if i == |parent.fs| then Done(false)
    else
      match ShouldExecute(parent.fs[i], stored, session, now)
      case Trapped(t) => Trapped(t)
      case Done(b) => if b then Done(true) else AnyFrom(parent, i + 1, stored, session, now)
  }

  /** `frequencies.map{…}`, from index `i` on: every sub-policy decided, in order. */
  function DecideEach(parent: Frequency, i: nat, stored: Model, session: Model, now: int): Outcome<seq<bool>>
    requires parent.All? && i <= |parent.fs|
    decreases parent, 0, |parent.fs| - i
  {
    if i == |parent.fs| then Done([])
    else
      match ShouldExecute(parent.fs[i], stored, session, now)
      case Trapped(t) => Trapped(t)
      case Done(b) =>
        match DecideEach(parent, i + 1, stored, session, now)
        case Trapped(t) => Trapped(t)
        case Done(bs) => Done([b] + bs)
  }

  /** Whether some `every` in `f`, at any depth, finds its counter at `Int.max`. */
  predicate HasSaturatedCounter(f: Frequency, stored: Model)
  {
    match f
    case Every(key, _) => key in stored.valueState && stored.valueState[key] == IntMax
    case Any(fs) => exists i :: 0 <= i < |fs| && HasSaturatedCounter(fs[i], stored)
    case All(fs) => exists i :: 0 <= i < |fs| && HasSaturatedCounter(fs[i], stored)
    case _ => false
  }

  /**
   `mutableStoredKeys` at the end of `updateKeys`: the edit made to the local
   copy. The `oncePerSession` edit lands on a copy of the session record and
   `any`/`all` discard what their sub-updates return, so both leave it as read.
   */
  function LocalEdit(f: Frequency, stored: Model, now: int): (r: Outcome<Model>)
    decreases f, 1
  {
    match f
    case Once(key) => Done(stored.(timeState := stored.timeState[key := now]))
    case IfTimePassed(key, _) => Done(stored.(timeState := stored.timeState[key := now]))
    case If(_) => Done(stored)
    case OncePerSession(_) => Done(stored)
    case Every(key, _) =>
      var times := if key in stored.valueState then stored.valueState[key] else 0;
      if times == IntMax then Trapped(Overflow)
      else Done(stored.(valueState := stored.valueState[key := times + 1]))
    case Any(_) =>
      (match UpdateEach(f, 0, stored, now)
       case Trapped(t) => Trapped(t)
       case Done(_) => Done(stored))
    case All(_) =>
      match UpdateEach(f, 0, stored, now)
      case Trapped(t) => Trapped(t)
      case Done(_) => Done(stored)
  }

  /** `frequencies.forEach{ updateKeys($0, storedKeys: storedKeys, …) }`, from index `i` on; results unused. */
  function UpdateEach(parent: Frequency, i: nat, stored: Model, now: int): (r: Outcome<()>)
    requires (parent.Any? || parent.All?) && i <= |parent.fs|
    ensures r.Trapped? <==> exists j :: i <= j < |parent.fs| && HasSaturatedCounter(parent.fs[j], stored)
    decreases parent, 0, |parent.fs| - i
  {
    if i == |parent.fs| then Done(())
    else
      match UpdateKeys(parent.fs[i], stored, now)
      case Trapped(t) => Trapped(t)
      case Done(_) => UpdateEach(parent, i + 1, stored, now)
  }

  /**
   `updateKeys` as written: it returns the model it was given, whatever the
   policy, so nothing it records ever reaches the store. It still traps when
   some `every` in the policy, at any depth and whatever that sub-policy
   decided, finds its counter at `Int.max`.
   */
  function UpdateKeys(f: Frequency, stored: Model, now: int): (r: Outcome<Model>)
    ensures r.Done? ==> r.value == stored
    ensures r.Trapped? <==> HasSaturatedCounter(f, stored)
    decreases f, 2
  {
    match LocalEdit(f, stored, now)
    case Trapped(t) => Trapped(t)
    case Done(_) => Done(stored)
  }

  /** The calls the persistent store receives, as the tests' mock store logs them. */
  datatype ProfileAction = ReadData(key: string) | WriteData(key: string)

  /** One evaluation: whether the block ran, the model written back (if any), and the store's log. */
  datatype Evaluation = Evaluation(ran: bool, written: Option<Model>, log: seq<ProfileAction>)

  /**
   `init(storage:profile:_:block:)`: read the profile's model, decide, and
   only when the decision is true run the block and write a model back. The
   session record is never changed.
   */
  function Evaluate(profile: string, f: Frequency, data: ProfileData, session: Model, now: int): (r: Outcome<Evaluation>)
    ensures var d := ShouldExecute(f, Load(data), session, now);
      r.Trapped? <==> d.Trapped? || (d.value && HasSaturatedCounter(f, Load(data)))
    ensures r.Done? ==> ShouldExecute(f, Load(data), session, now) == Done(r.value.ran)
    ensures r.Done? ==> (r.value.written.Some? <==> r.value.ran)
    ensures r.Done? ==> r.value.log == [ReadData(profile)] + (if r.value.ran then [WriteData(profile)] else [])
    ensures r.Done? && r.value.ran ==> r.value.written == Some(Load(data))
  {
    var storedKeys := Load(data);
    match ShouldExecute(f, storedKeys, session, now)
    case Trapped(t) => Trapped(t)
    case Done(run) =>
      if !run then Done(Evaluation(false, None, [ReadData(profile)]))
      else
        match UpdateKeys(f, storedKeys, now)
        case Trapped(t) => Trapped(t)
        case Done(newModel) => Done(Evaluation(true, Some(newModel), [ReadData(profile), WriteData(profile)]))
  }

  // The evidently intended update: the edits are kept, the session record is
  // written in place, and `any`/`all` thread the model through their sub-policies.

  /** The keys a policy names, at any depth. */
  function Keys(f: Frequency): set<string>
  {
    match f
    case Once(key) => {key}
    case OncePerSession(key) => {key}
    case IfTimePassed(key, _) => {key}
    case If(_) => {}
    case Every(key, _) => {key}
    case Any(fs) => set i, k | 0 <= i < |fs| && k in Keys(fs[i]) :: k
    case All(fs) => set i, k | 0 <= i < |fs| && k in Keys(fs[i]) :: k
  }

  /** `b` extends `a`: every key of `a` is still present, and keys outside `touched` are unchanged. */
  ghost predicate Extends<V>(a: map<string, V>, b: map<string, V>, touched: set<string>)
  {
    && a.Keys <= b.Keys
    && forall k :: k in b && k !in touched ==> k in a && b[k] == a[k]
  }

  /** Every key `a` records at `now` is still recorded at `now` in `b`. */
  ghost predicate KeepsNow(a: map<string, int>, b: map<string, int>, now: int)
  {
    forall k :: k in a && a[k] == now ==> k in b && b[k] == now
  }

  /**
   Every sub-policy of `f`, at any depth, that records an instant has it
   recorded at `now`: `once`/`ifTimePassed` in `stored`, `oncePerSession` in
   `session`.
   */
  ghost predicate Recorded(f: Frequency, stored: Model, session: Model, now: int)
    decreases f
  {
    match f
    case Once(key) => key in stored.timeState && stored.timeState[key] == now
    case IfTimePassed(key, _) => key in stored.timeState && stored.timeState[key] == now
    case OncePerSession(key) => key in session.timeState && session.timeState[key] == now
    case If(_) => true
    case Every(_, _) => true
    case Any(fs) => forall j :: 0 <= j < |fs| ==> Recorded(fs[j], stored, session, now)
    case All(fs) => forall j :: 0 <= j < |fs| ==> Recorded(fs[j], stored, session, now)
  }

  /** The `every` counter for `key`: the stored count, or 0 when there is none. */
  function CountOf(m: map<string, Int64>, key: string): int
  {
    if key in m then m[key] else 0
  }

  /** No counter goes missing or goes down from `a` to `b`. */
  ghost predicate Grows(a: map<string, Int64>, b: map<string, Int64>)
  {
    a.Keys <= b.Keys && forall k :: CountOf(b, k) >= CountOf(a, k)
  }

  /** Every `every` of `f`, at any depth, has a counter in `after` above its count in `before`. */
  ghost predicate Counted(f: Frequency, before: Model, after: Model)
    decreases f
  {
    match f
    case Every(key, _) => key in after.valueState && after.valueState[key] > CountOf(before.valueState, key)
    case Any(fs) => forall j :: 0 <= j < |fs| ==> Counted(fs[j], before, after)
    case All(fs) => forall j :: 0 <= j < |fs| ==> Counted(fs[j], before, after)
    case _ => true
  }

  /**
   The intended `updateKeys`: `once`/`ifTimePassed` record `now`,
   `oncePerSession` records `now` in the session record, `every` adds one to
   its counter, and `any`/`all` apply every sub-update in order. Nothing is
   ever removed and only the policy's own keys change.
   */
  function IntendedUpdate(f: Frequency, stored: Model, session: Model, now: int): (r: Outcome<(Model, Model)>)
    ensures r.Done? ==>
      && Extends(stored.timeState, r.value.0.timeState, Keys(f))
      && Extends(stored.valueState, r.value.0.valueState, Keys(f))
      && Extends(session.timeState, r.value.1.timeState, Keys(f))
      && Extends(session.valueState, r.value.1.valueState, {})
    ensures r.Done? ==> KeepsNow(stored.timeState, r.value.0.timeState, now) && KeepsNow(session.timeState, r.value.1.timeState, now)
    ensures r.Done? ==> Recorded(f, r.value.0, r.value.1, now)
    ensures r.Done? ==> Grows(stored.valueState, r.value.0.valueState) && Counted(f, stored, r.value.0)
    ensures r.Done? && (f.Once? || f.IfTimePassed?) ==>
      f.key in r.value.0.timeState && r.value.0.timeState[f.key] == now && r.value.1 == session
    ensures r.Done? && f.OncePerSession? ==>
      f.key in r.value.1.timeState && r.value.1.timeState[f.key] == now && r.value.0 == stored
    ensures f.Every? ==>
      var c := if f.key in stored.valueState then stored.valueState[f.key] else 0;
      (r.Trapped? <==> c == IntMax)
      && (r.Done? ==> f.key in r.value.0.valueState && r.value.0.valueState[f.key] == c + 1)
    decreases f, 1
  {
    match f
    case Once(key) => Done((stored.(timeState := stored.timeState[key := now]), session))
    case IfTimePassed(key, _) => Done((stored.(timeState := stored.timeState[key := now]), session))
    case If(_) => Done((stored, session))
    case OncePerSession(key) => Done((stored, session.(timeState := session.timeState[key := now])))
    case Every(key, _) =>
      var times := CountOf(stored.valueState, key);
      if times == IntMax then Trapped(Overflow)
      else Done((stored.(valueState := stored.valueState[key := times + 1]), session))
    case Any(_) => IntendedEach(f, 0, stored, session, now)
    case All(_) => IntendedEach(f, 0, stored, session, now)
  }

  /** The keys the sub-policies from index `i` on name. */
  function KeysFrom(fs: seq<Frequency>, i: nat): set<string>
  {
    set j, k | i <= j < |fs| && k in Keys(fs[j]) :: k
  }

  /** The sub-updates from index `i` on, each seeing the models the previous one produced. */
  function IntendedEach(parent: Frequency, i: nat, stored: Model, session: Model, now: int): (r: Outcome<(Model, Model)>)
    requires (parent.Any? || parent.All?) && i <= |parent.fs|
    ensures r.Done? ==>
      && Extends(stored.timeState, r.value.0.timeState, KeysFrom(parent.fs, i))
      && Extends(stored.valueState, r.value.0.valueState, KeysFrom(parent.fs, i))
      && Extends(session.timeState, r.value.1.timeState, KeysFrom(parent.fs, i))
      && Extends(session.valueState, r.value.1.valueState, {})
    ensures r.Done? ==> KeepsNow(stored.timeState, r.value.0.timeState, now) && KeepsNow(session.timeState, r.value.1.timeState, now)
    ensures r.Done? ==> forall j :: i <= j < |parent.fs| ==> Recorded(parent.fs[j], r.value.0, r.value.1, now)
    ensures r.Done? ==>
      && Grows(stored.valueState, r.value.0.valueState)
      && forall j :: i <= j < |parent.fs| ==> Counted(parent.fs[j], stored, r.value.0)
    decreases parent, 0, |parent.fs| - i
  {
    if i == |parent.fs| then Done((stored, session))
    else
      match IntendedUpdate(parent.fs[i], stored, session, now)
      case Trapped(t) => Trapped(t)
      case Done((stored1, session1)) =>
        var rest := IntendedEach(parent, i + 1, stored1, session1, now);
        if rest.Trapped? then rest
        else
          KeepsNowTransitive(stored.timeState, stored1.timeState, rest.value.0.timeState, now);
          KeepsNowTransitive(session.timeState, session1.timeState, rest.value.1.timeState, now);
          EachRecorded(parent, i, stored1, session1, rest.value.0, rest.value.1, now);
          EachCounted(parent, i, stored, stored1, rest.value.0);
          rest
  }

  lemma KeepsNowTransitive(a: map<string, int>, b: map<string, int>, c: map<string, int>, now: int)
    requires KeepsNow(a, b, now) && KeepsNow(b, c, now)
    ensures KeepsNow(a, c, now)
  {
  }

  /**
   Sub-policy `i` recorded its instants in `stored1`/`session1`, the later
   sub-updates keep every instant at `now` and recorded their own: then
   everything from `i` on is recorded.
   */
  lemma EachRecorded(parent: Frequency, i: nat, stored1: Model, session1: Model, stored2: Model, session2: Model, now: int)
    requires (parent.Any? || parent.All?) && i < |parent.fs|
    requires Recorded(parent.fs[i], stored1, session1, now)
    requires KeepsNow(stored1.timeState, stored2.timeState, now) && KeepsNow(session1.timeState, session2.timeState, now)
    requires forall j :: i + 1 <= j < |parent.fs| ==> Recorded(parent.fs[j], stored2, session2, now)
    ensures forall j :: i <= j < |parent.fs| ==> Recorded(parent.fs[j], stored2, session2, now)
  {
    RecordedKept(parent.fs[i], stored1, session1, stored2, session2, now);
  }

  /**
   Sub-policy `i` counted its `every`s from `stored` to `stored1`, the later
   sub-updates grow the counters and counted their own from `stored1`: then
   everything from `i` on is counted from `stored`.
   */
  lemma EachCounted(parent: Frequency, i: nat, stored: Model, stored1: Model, stored2: Model)
    requires (parent.Any? || parent.All?) && i < |parent.fs|
    requires Grows(stored.valueState, stored1.valueState) && Counted(parent.fs[i], stored, stored1)
    requires Grows(stored1.valueState, stored2.valueState)
    requires forall j :: i + 1 <= j < |parent.fs| ==> Counted(parent.fs[j], stored1, stored2)
    ensures Grows(stored.valueState, stored2.valueState)
    ensures forall j :: i <= j < |parent.fs| ==> Counted(parent.fs[j], stored, stored2)
  {
    GrowsTransitive(stored.valueState, stored1.valueState, stored2.valueState);
    CountedKept(parent.fs[i], stored, stored1, stored2);
    forall j | i + 1 <= j < |parent.fs|
      ensures Counted(parent.fs[j], stored, stored2)
    {
      CountedFrom(parent.fs[j], stored, stored1, stored2);
    }
  }

  lemma GrowsTransitive(a: map<string, Int64>, b: map<string, Int64>, c: map<string, Int64>)
    requires Grows(a, b) && Grows(b, c)
    ensures Grows(a, c)
  {
  }

  /** What a policy recorded at `now` stays recorded while later updates keep every instant at `now`. */
  lemma {:induction false} RecordedKept(f: Frequency, stored1: Model, session1: Model, stored2: Model, session2: Model, now: int)
    requires Recorded(f, stored1, session1, now)
    requires KeepsNow(stored1.timeState, stored2.timeState, now) && KeepsNow(session1.timeState, session2.timeState, now)
    ensures Recorded(f, stored2, session2, now)
    decreases f
  {
    match f
    case Any(fs) =>
      forall j | 0 <= j < |fs|
        ensures Recorded(fs[j], stored2, session2, now)
      {
        RecordedKept(fs[j], stored1, session1, stored2, session2, now);
      }
    case All(fs) =>
      forall j | 0 <= j < |fs|
        ensures Recorded(fs[j], stored2, session2, now)
      {
        RecordedKept(fs[j], stored1, session1, stored2, session2, now);
      }
    case _ =>
  }

  /** Counters that were above their earlier counts stay above them while the counters grow. */
  lemma {:induction false} CountedKept(f: Frequency, before: Model, mid: Model, after: Model)
    requires Counted(f, before, mid) && Grows(mid.valueState, after.valueState)
    ensures Counted(f, before, after)
    decreases f
  {
    match f
    case Every(key, _) =>
      assert CountOf(after.valueState, key) >= CountOf(mid.valueState, key);
    case Any(fs) =>
      forall j | 0 <= j < |fs|
        ensures Counted(fs[j], before, after)
      {
        CountedKept(fs[j], before, mid, after);
      }
    case All(fs) =>
      forall j | 0 <= j < |fs|
        ensures Counted(fs[j], before, after)
      {
        CountedKept(fs[j], before, mid, after);
      }
    case _ =>
  }

  /** Counters above their counts in `mid` are above their counts in any earlier `before` the counters grew from. */
  lemma {:induction false} CountedFrom(f: Frequency, before: Model, mid: Model, after: Model)
    requires Grows(before.valueState, mid.valueState) && Counted(f, mid, after)
    ensures Counted(f, before, after)
    decreases f
  {
    match f
    case Every(key, _) =>
      assert CountOf(mid.valueState, key) >= CountOf(before.valueState, key);
    case Any(fs) =>
      forall j | 0 <= j < |fs|
        ensures Counted(fs[j], before, after)
      {
        CountedFrom(fs[j], before, mid, after);
      }
    case All(fs) =>
      forall j | 0 <= j < |fs|
        ensures Counted(fs[j], before, after)
      {
        CountedFrom(fs[j], before, mid, after);
      }
    case _ =>
  }

  /** One intended evaluation also hands back the session record as the block left it. */
  datatype IntendedEvaluation = IntendedEvaluation(ran: bool, written: Option<Model>, session: Model, log: seq<ProfileAction>)

  /**
   The gate with the intended update: the written model carries the edits, and
   the session record is updated. Only the write-back is corrected; the
   decision is the older one, so an `every` whose counter is absent still needs
   `times == 1` to start (see `LegacyProperties.EveryNeverStarts`).
   */
  function IntendedEvaluate(profile: string, f: Frequency, data: ProfileData, session: Model, now: int): (r: Outcome<IntendedEvaluation>)
    ensures r.Done? ==> ShouldExecute(f, Load(data), session, now) == Done(r.value.ran)
    ensures r.Done? ==> (r.value.written.Some? <==> r.value.ran)
    ensures r.Done? ==> r.value.log == [ReadData(profile)] + (if r.value.ran then [WriteData(profile)] else [])
    ensures r.Done? && !r.value.ran ==> r.value.session == session
    ensures r.Done? && r.value.ran ==>
      var d := Load(data);
      && Extends(d.timeState, r.value.written.value.timeState, Keys(f))
      && Extends(d.valueState, r.value.written.value.valueState, Keys(f))
      && Extends(session.timeState, r.value.session.timeState, Keys(f))
    ensures r.Done? && r.value.ran ==>
      && Recorded(f, r.value.written.value, r.value.session, now)
      && Grows(Load(data).valueState, r.value.written.value.valueState)
      && Counted(f, Load(data), r.value.written.value)
  {
    var storedKeys := Load(data);
    match ShouldExecute(f, storedKeys, session, now)
    case Trapped(t) => Trapped(t)
    case Done(run) =>
      if !run then Done(IntendedEvaluation(false, None, session, [ReadData(profile)]))
      else
        match IntendedUpdate(f, storedKeys, session, now)
        case Trapped(t) => Trapped(t)
        case Done((newModel, newSession)) =>
          Done(IntendedEvaluation(true, Some(newModel), newSession, [ReadData(profile), WriteData(profile)]))
  }
}

=== FILE: legacy_properties.dfy ===
/**
 Properties of the older revision: `any` is existential and lazy, `all` is
 universal and eager, the as-written update loses every edit (so `once` and
 `oncePerSession` keep running), and the intended update does not.
 */
module LegacyProperties {
  import opened Wrappers
  import opened Runtime
  import opened TimeInterval
  import opened Legacy

  /** None of the sub-policies traps. */
  ghost predicate NoneTrap(fs: seq<Frequency>, stored: Model, session: Model, now: int)
  {
    forall i :: 0 <= i < |fs| ==> ShouldExecute(fs[i], stored, session, now).Done?
  }

  lemma {:induction false} AnyFromExistential(parent: Frequency, i: nat, stored: Model, session: Model, now: int)
    requires parent.Any? && i <= |parent.fs|
    requires NoneTrap(parent.fs, stored, session, now)
    ensures AnyFrom(parent, i, stored, session, now)
      == Done(exists j :: i <= j < |parent.fs| && ShouldExecute(parent.fs[j], stored, session, now).value)
    decreases |parent.fs| - i
  {
    if i < |parent.fs| {
      AnyFromExistential(parent, i + 1, stored, session, now);
    }
  }

  /** `any(fs)` decides true iff some sub-policy does; so `any([])` decides false. */
  lemma AnyIsExistential(fs: seq<Frequency>, stored: Model, session: Model, now: int)
    requires NoneTrap(fs, stored, session, now)
    ensures ShouldExecute(Any(fs), stored, session, now)
      == Done(exists i :: 0 <= i < |fs| && ShouldExecute(fs[i], stored, session, now).value)
    ensures ShouldExecute(Any([]), stored, session, now) == Done(false)
  {
    AnyFromExistential(Any(fs), 0, stored, session, now);
  }

  lemma {:induction false} AnyFromStops(parent: Frequency, i: nat, j: nat, stored: Model, session: Model, now: int)
    requires parent.Any? && i <= j < |parent.fs|
    requires ShouldExecute(parent.fs[j], stored, session, now) == Done(true)
    requires forall m :: i <= m < j ==> ShouldExecute(parent.fs[m], stored, session, now) == Done(false)
    ensures AnyFrom(parent, i, stored, session, now) == Done(true)
    decreases j - i
  {
    if i < j {
      AnyFromStops(parent, i + 1, j, stored, session, now);
    }
  }

  /**
   `any` stops at the first sub-policy that decides true: what comes after it,
   even an `every` that would trap, is never evaluated.
   */
  lemma AnyStopsAtFirstTrue(fs: seq<Frequency>, j: nat, stored: Model, session: Model, now: int)
    requires j < |fs|
    requires ShouldExecute(fs[j], stored, session, now) == Done(true)
    requires forall m :: 0 <= m < j ==> ShouldExecute(fs[m], stored, session, now) == Done(false)
    ensures ShouldExecute(Any(fs), stored, session, now) == Done(true)
  {
    AnyFromStops(Any(fs), 0, j, stored, session, now);
  }

  lemma {:induction false} DecideEachMaps(parent: Frequency, i: nat, stored: Model, session: Model, now: int)
    requires parent.All? && i <= |parent.fs|
    ensures var r := DecideEach(parent, i, stored, session, now);
      && (r.Trapped? <==> exists j :: i <= j < |parent.fs| && ShouldExecute(parent.fs[j], stored, session, now).Trapped?)
      && (r.Done? ==>
            && |r.value| == |parent.fs| - i
            && forall j :: i <= j < |parent.fs| ==> ShouldExecute(parent.fs[j], stored, session, now) == Done(r.value[j - i]))
    decreases |parent.fs| - i
  {
    if i < |parent.fs| {
      DecideEachMaps(parent, i + 1, stored, session, now);
      var r := DecideEach(parent, i, stored, session, now);
      var rest := DecideEach(parent, i + 1, stored, session, now);
      if r.Done? {
        forall j | i <= j < |parent.fs|
          ensures ShouldExecute(parent.fs[j], stored, session, now) == Done(r.value[j - i])
        {
          if j > i {
            assert r.value[j - i] == rest.value[j - (i + 1)];
          }
        }
      }
    }
  }

  /** `all(fs)` decides true iff no sub-policy decides false; so `all([])` decides true. */
  lemma AllIsUniversal(fs: seq<Frequency>, stored: Model, session: Model, now: int)
    requires NoneTrap(fs, stored, session, now)
    ensures ShouldExecute(All(fs), stored, session, now)
      == Done(forall i :: 0 <= i < |fs| ==> ShouldExecute(fs[i], stored, session, now).value)
    ensures ShouldExecute(All([]), stored, session, now) == Done(true)
  {
    DecideEachMaps(All(fs), 0, stored, session, now);
    DecideEachMaps(All([]), 0, stored, session, now);
    var bs := DecideEach(All(fs), 0, stored, session, now);
    assert bs.Done?;
    var everyTrue := forall i :: 0 <= i < |fs| ==> ShouldExecute(fs[i], stored, session, now).value;
    if everyTrue {
      forall j | 0 <= j < |bs.value|
        ensures bs.value[j]
      {
        assert ShouldExecute(fs[j], stored, session, now) == Done(bs.value[j - 0]);
      }
    } else {
      var i :| 0 <= i < |fs| && !ShouldExecute(fs[i], stored, session, now).value;
      assert !bs.value[i];
    }
  }

  /** `all` decides every sub-policy before looking at the answers: one that traps makes `all` trap. */
  lemma AllEvaluatesEverySubPolicy(fs: seq<Frequency>, j: nat, stored: Model, session: Model, now: int)
    requires j < |fs|
    requires ShouldExecute(fs[j], stored, session, now).Trapped?
    ensures ShouldExecute(All(fs), stored, session, now).Trapped?
  {
    DecideEachMaps(All(fs), 0, stored, session, now);
  }

  /**
   `ifTimePassed` with nothing recorded decides true; otherwise it compares the
   recorded instant plus the interval (`.never` counting as zero) with `now`,
   exactly as the current revision does.
   */
  lemma IfTimePassedDecision(key: string, limit: Interval, stored: Model, session: Model, now: int)
    ensures key !in stored.timeState ==> ShouldExecute(IfTimePassed(key, limit), stored, session, now) == Done(true)
    ensures key in stored.timeState ==>
      ShouldExecute(IfTimePassed(key, limit), stored, session, now) == Done(stored.timeState[key] + ToNanos(limit) < now)
  {
  }

  /**
   `every(key, times)` here fires only when the count plus one equals `times`;
   the current revision's rule also fires when the count is zero. From an
   empty counter the two disagree for every `times` other than 1.
   */
  lemma EveryRuleDiffers(key: string, times: Int64, stored: Model, session: Model, now: int)
    requires key !in stored.valueState
    ensures ShouldExecute(Every(key, times), stored, session, now) == Done(times == 1)
  {
  }

  /**
   `every(key, times)` for any stored count `c` (0 when absent): traps exactly
   when `c + 1` would overflow, and otherwise fires iff `c + 1 == times`.
   */
  lemma EveryDecision(key: string, times: Int64, stored: Model, session: Model, now: int)
    ensures var c := if key in stored.valueState then stored.valueState[key] else 0;
      var r := ShouldExecute(Every(key, times), stored, session, now);
      && (r.Trapped? <==> c == IntMax)
      && (r.Done? ==> (r.value <==> c + 1 == times))
  {
  }

  /**
   `once` fires iff the profile records no time for its key; `oncePerSession`
   asks the same of the session record instead.
   */
  lemma OnceDecisions(key: string, stored: Model, session: Model, now: int)
    ensures ShouldExecute(Once(key), stored, session, now) == Done(key !in stored.timeState)
    ensures ShouldExecute(OncePerSession(key), stored, session, now) == Done(key !in session.timeState)
  {
  }

  // The older test suite's scenarios.

  /** A first `once` on an empty store runs, reads the profile and writes it back. */
  lemma RunOnceFirstTimeScenario(session: Model, now: int)
    ensures Evaluate(DefaultProfile, Once("key"), Missing, session, now)
      == Done(Evaluation(true, Some(EmptyModel()), [ReadData("com.executeOnly"), WriteData("com.executeOnly")]))
  {
  }

  /** A `once` whose key is already recorded does not run and only reads the profile. */
  lemma RunOnceAlreadyRunScenario(session: Model, now: int)
    ensures Evaluate(DefaultProfile, Once("key"), Encoded(Model(map["key" := NanosPerSecond], map[])), session, now)
      == Done(Evaluation(false, None, [ReadData("com.executeOnly")]))
  {
  }

  // What the as-written update does to repeated evaluations, and what the
  // intended update does instead.

  /**
   As written, `once` never records anything: the model written back is the
   one read, so the next evaluation, reading that model, runs again.
   */
  lemma OnceRepeats(profile: string, key: string, data: ProfileData, session: Model, now1: int, now2: int)
    requires key !in Load(data).timeState
    ensures var e1 := Evaluate(profile, Once(key), data, session, now1);
      && e1.Done? && e1.value.ran
      && e1.value.written == Some(Load(data))
      && var e2 := Evaluate(profile, Once(key), Encoded(e1.value.written.value), session, now2);
      e2.Done? && e2.value.ran
  {
  }

  /** With the intended update, `once` records `now`, and the next evaluation does not run. */
  lemma IntendedOnceRunsOnce(profile: string, key: string, data: ProfileData, session: Model, now1: int, now2: int)
    requires key !in Load(data).timeState
    ensures var e1 := IntendedEvaluate(profile, Once(key), data, session, now1);
      && e1.Done? && e1.value.ran
      && var e2 := IntendedEvaluate(profile, Once(key), Encoded(e1.value.written.value), e1.value.session, now2);
      e2.Done? && !e2.value.ran
  {
  }

  /**
   As written, `oncePerSession` writes to a copy of the session record, which
   never changes, so within one process it runs on every evaluation.
   */
  lemma OncePerSessionRepeats(profile: string, key: string, data: ProfileData, session: Model, now1: int, now2: int)
    requires key !in session.timeState
    ensures var e1 := Evaluate(profile, OncePerSession(key), data, session, now1);
      && e1.Done? && e1.value.ran
      && var e2 := Evaluate(profile, OncePerSession(key), Encoded(e1.value.written.value), session, now2);
      e2.Done? && e2.value.ran
  {
  }

  /** With the intended update the session record remembers the run, and the next evaluation does not run. */
  lemma IntendedOncePerSessionRunsOnce(profile: string, key: string, data: ProfileData, session: Model, now1: int, now2: int)
    requires key !in session.timeState
    ensures var e1 := IntendedEvaluate(profile, OncePerSession(key), data, session, now1);
      && e1.Done? && e1.value.ran
      && var e2 := IntendedEvaluate(profile, OncePerSession(key), Encoded(e1.value.written.value), e1.value.session, now2);
      e2.Done? && !e2.value.ran
  {
  }

  /**
   As written, `any`/`all` drop what their sub-updates record: `all([once(a)])`
   runs, writes back the model it read, and runs again on the next evaluation.
   */
  lemma AllOnceRepeats(profile: string, a: string, data: ProfileData, session: Model, now1: int, now2: int)
    requires a !in Load(data).timeState
    ensures var e1 := Evaluate(profile, All([Once(a)]), data, session, now1);
      && e1.Done? && e1.value.ran
      && e1.value.written == Some(Load(data))
      && var e2 := Evaluate(profile, All([Once(a)]), Encoded(e1.value.written.value), session, now2);
      e2.Done? && e2.value.ran
  {
    var f := All([Once(a)]);
    var m := Load(data);
    assert DecideEach(f, 1, m, session, now1) == Done([]);
    assert ShouldExecute(f.fs[0], m, session, now1) == Done(true);
    assert [true] + [] == [true];
    assert DecideEach(f, 0, m, session, now1) == Done([true]);
    assert FirstIndexOf([true], false).None?;
    assert !HasSaturatedCounter(f, m) by {
      assert forall j :: 0 <= j < |f.fs| ==> f.fs[j] == Once(a);
    }
    assert Load(Encoded(m)) == m;
    assert DecideEach(f, 1, m, session, now2) == Done([]);
    assert ShouldExecute(f.fs[0], m, session, now2) == Done(true);
    assert DecideEach(f, 0, m, session, now2) == Done([true]);
  }

  /**
   With the intended update `all` threads the model through its sub-policies:
   `all([once(a)])` runs, records `a`, and the next evaluation on the written
   data does not run.
   */
  lemma IntendedAllOnceRunsOnce(profile: string, a: string, data: ProfileData, session: Model, now1: int, now2: int)
    requires a !in Load(data).timeState
    ensures var e1 := IntendedEvaluate(profile, All([Once(a)]), data, session, now1);
      && e1.Done? && e1.value.ran
      && var e2 := IntendedEvaluate(profile, All([Once(a)]), Encoded(e1.value.written.value), e1.value.session, now2);
      e2.Done? && !e2.value.ran
  {
    var f := All([Once(a)]);
    var d := Load(data);
    assert DecideEach(f, 1, d, session, now1) == Done([]);
    assert ShouldExecute(f.fs[0], d, session, now1) == Done(true);
    assert [true] + [] == [true];
    assert DecideEach(f, 0, d, session, now1) == Done([true]);
    assert FirstIndexOf([true], false).None?;
    assert IntendedUpdate(f.fs[0], d, session, now1).Done?;
    assert IntendedEach(f, 0, d, session, now1).Done?;
    var e1 := IntendedEvaluate(profile, f, data, session, now1);
    assert e1.Done? && e1.value.ran;
    var m := e1.value.written.value;
    assert Recorded(f.fs[0], m, e1.value.session, now1);
    assert a in m.timeState;
    assert Load(Encoded(m)) == m;
    assert DecideEach(f, 1, m, e1.value.session, now2) == Done([]);
    assert ShouldExecute(f.fs[0], m, e1.value.session, now2) == Done(false);
    assert [false] + [] == [false];
    assert DecideEach(f, 0, m, e1.value.session, now2) == Done([false]);
    assert FirstIndexOf([false], false) == Some(0);
  }

  /**
   The `forEach` of `any`/`all` loses its sub-updates by itself, before the
   final `return storedKeys`: each sub-policy's own edit exists (a `once`
   records `now`), yet the parent's local copy comes out exactly as read.
   */
  lemma CombinatorsDropSubUpdates(f: Frequency, stored: Model, now: int)
    requires f.Any? || f.All?
    requires !HasSaturatedCounter(f, stored)
    ensures LocalEdit(f, stored, now) == Done(stored)
    ensures forall j :: 0 <= j < |f.fs| && f.fs[j].Once? ==>
      LocalEdit(f.fs[j], stored, now) == Done(stored.(timeState := stored.timeState[f.fs[j].key := now]))
  {
  }

  /**
   `every(key, times)` with `times != 1` never starts from an absent counter,
   as written or with the intended update: the counter only advances on a
   run, and the decision needs `0 + 1 == times`. The evaluation skips and
   writes nothing, so the next one sees the same data and skips again.
   */
  lemma EveryNeverStarts(profile: string, key: string, times: Int64, data: ProfileData, session: Model, now: int)
    requires times != 1
    requires key !in Load(data).valueState
    ensures Evaluate(profile, Every(key, times), data, session, now) == Done(Evaluation(false, None, [ReadData(profile)]))
    ensures IntendedEvaluate(profile, Every(key, times), data, session, now)
      == Done(IntendedEvaluation(false, None, session, [ReadData(profile)]))
  {
  }
}

=== FILE: policy.dfy ===
/**
 The frequency policy (`OnlyFrequency`, and `Frequency` in the internal-name
 revision): a closed set of five rules. Every rule but `If` names a key; the
 key type's raw string value is what reaches the stores, so keys are strings here.
 */
module Policy {
  import opened Runtime
  import opened TimeInterval

  datatype Frequency =
    | Once(key: string)
    | OncePerSession(key: string)
    | IfTimePassed(key: string, limit: Interval)
      /** `control` is the value the caller's predicate returns when the gate calls it. */
    | If(control: bool)
      /** `times` is a Swift `Int`, never validated when the policy is built. */
    | Every(key: string, times: Int64)
}

=== FILE: runtime.dfy ===
/**
 Swift's `Int` on a 64-bit platform and the runtime traps the gate can hit:
 an arithmetic overflow and a remainder by zero stop the process.
 */
module Runtime {

  const IntMin: int := -0x8000_0000_0000_0000
  const IntMax: int := 0x7FFF_FFFF_FFFF_FFFF

  /** Swift's `Int`. */
  type Int64 = x: int | IntMin <= x <= IntMax

  datatype Trap = Overflow | DivisionByZero

  /** The result of a computation that either completes or traps. */
  datatype Outcome<+T> = Done(value: T) | Trapped(trap: Trap)

  function Abs(x: int): nat
  {
    if x < 0 then -x else x
  }

  /**
   Swift's `%`: the remainder of truncating division, which takes the sign of
   the dividend (Dafny's `%` is Euclidean and never negative). The two agree
   on whether the remainder is zero, which is all the gate asks of it.
   */
  function Remainder(a: int, b: int): (r: int)
    requires b != 0
    ensures Abs(r) < Abs(b)
    ensures a >= 0 ==> r >= 0
    ensures a < 0 ==> r <= 0
    ensures r == 0 <==> a % b == 0
  {
    if a >= 0 || a % b == 0 then a % b else a % b - Abs(b)
  }

  /**
   The quotient that goes with `Remainder`: Swift's `/` truncates toward zero,
   and `a == b * q + Remainder(a, b)`. With the bounds on `Remainder`, this
   fixes the remainder's value.
   */
  lemma TruncatedQuotient(a: int, b: int) returns (q: int)
    requires b != 0
    ensures a == b * q + Remainder(a, b)
    ensures a >= 0 && b > 0 ==> q >= 0
    ensures a <= 0 && b > 0 ==> q <= 0
  {
    if a >= 0 || a % b == 0 {
      q := a / b;
    } else if b > 0 {
      q := a / b + 1;
    } else {
      q := a / b - 1;
    }
  }
}

=== FILE: session_copy.dfy ===
/**
 The session store as callers of `Only` actually get it. `OnlySessionStorage`
 is a struct: the gate keeps its own copy, so its writes never reach the
 caller's value, and the default argument builds a new, empty store on
 every call. The internal-name revision's `SessionStorage1` is a struct
 too, defaulted and copied the same way, so this holds for both. This module
 models that as written; `Gate.Evaluate` threads the session store through,
 as a once-per-process rule needs.
 */
module SessionCopy {
  import opened Runtime
  import opened Storage
  import opened Policy
  import opened Gate

  /**
   One evaluation when the session store is a value: the caller learns
   whether the block ran and sees the persistent store change, while its own
   session value stays as it was.
   */
  function EvaluateOnSessionCopy(profile: string, f: Frequency, persistent: Tracked, session: Store, now: int): (r: Outcome<(bool, Tracked)>)
    ensures r.Done? && f.OncePerSession? ==> r.value == (GetInt(session, Slot(profile, f)).None?, persistent)
    ensures r.Done? && f.Once? ==> r.value.0 == GetInt(persistent.data, Slot(profile, f)).None?
  {
    match Evaluate(profile, f, Stores(persistent, Tracked(session, [])), now)
    case Trapped(t) => Trapped(t)
    case Done(e) => Done((e.ran, e.stores.persistent))
  }

  /**
   With the default session store, `oncePerSession` runs on every call; and
   a caller that passes its own session value twice sees the block run both
   times, because the value it holds never records the first run.
   */
  lemma OncePerSessionRepeats(profile: string, key: string, persistent: Tracked, session: Store, now1: int, now2: int)
    requires GetInt(session, CompositeKey(profile, key)).None?
    ensures EvaluateOnSessionCopy(profile, OncePerSession(key), persistent, Fresh(), now1) == Done((true, persistent))
    ensures EvaluateOnSessionCopy(profile, OncePerSession(key), persistent, session, now1) == Done((true, persistent))
    ensures EvaluateOnSessionCopy(profile, OncePerSession(key), persistent, session, now2) == Done((true, persistent))
  {
  }
}

=== FILE: storage.dfy ===
/**
 The key-value store the gate reads and writes: the in-memory session store
 (`OnlySessionStorage`, `SessionStorage1`) is a dictionary from string keys to
 values of any type, read back with `as? Int` / `as? Date`. A `Tracked` store
 also records each call made on it, as the tests' mock store does.
 */
module Storage {
  import opened Wrappers
  import opened Runtime

  /** What one key can hold: a Swift `Int`, or a `Date` in nanoseconds since the epoch. */
  datatype Value = IntValue(n: Int64) | DateValue(t: int)

  type Store = map<string, Value>

  /** `a` and `b` hold the same thing under every key except `k`. */
  ghost predicate AgreeExcept(a: Store, b: Store, k: string)
  {
    forall k' :: k' != k ==> (k' in a <==> k' in b) && (k' in a ==> a[k'] == b[k'])
  }

  /** A freshly initialised store. */
  function Fresh(): (s: Store)
    ensures forall k :: GetInt(s, k) == None && GetDate(s, k) == None
  {
    map[]
  }

  /** `backingStore[key] as? Int` */
  function GetInt(s: Store, k: string): Option<Int64>
  {
    if k in s && s[k].IntValue? then Some(s[k].n) else None
  }

  /** `backingStore[key] as? Date` */
  function GetDate(s: Store, k: string): Option<int>
  {
    if k in s && s[k].DateValue? then Some(s[k].t) else None
  }

  /** `set(_ value: Int, _ key:)`: the key now holds `v` and nothing else; every other key is as before. */
  function SetInt(s: Store, v: Int64, k: string): (r: Store)
    ensures GetInt(r, k) == Some(v)
    ensures GetDate(r, k) == None
    ensures AgreeExcept(s, r, k)
  {
    s[k := IntValue(v)]
  }

  /** `set(_ date: Date, _ key:)`: the key now holds `d` and nothing else; every other key is as before. */
  function SetDate(s: Store, d: int, k: string): (r: Store)
    ensures GetDate(r, k) == Some(d)
    ensures GetInt(r, k) == None
    ensures AgreeExcept(s, r, k)
  {
    s[k := DateValue(d)]
  }

  /** The calls a store receives, as the tests' mock store logs them. */
  datatype Action =
    | ReadInt(key: string)
    | ReadDate(key: string)
    | WriteInt(value: Int64, key: string)
    | WriteDate(date: int, key: string)

  /** A store together with the log of calls made on it. */
  datatype Tracked = Tracked(data: Store, log: seq<Action>)

  /** A fresh store with nothing logged yet. */
  function FreshTracked(): Tracked
  {
    Tracked(Fresh(), [])
  }

  function TrackedGetInt(t: Tracked, k: string): (Option<Int64>, Tracked)
  {
    (GetInt(t.data, k), t.(log := t.log + [ReadInt(k)]))
  }

  function TrackedGetDate(t: Tracked, k: string): (Option<int>, Tracked)
  {
    (GetDate(t.data, k), t.(log := t.log + [ReadDate(k)]))
  }

  function TrackedSetInt(t: Tracked, v: Int64, k: string): Tracked
  {
    Tracked(SetInt(t.data, v, k), t.log + [WriteInt(v, k)])
  }

  function TrackedSetDate(t: Tracked, d: int, k: string): Tracked
  {
    Tracked(SetDate(t.data, d, k), t.log + [WriteDate(d, k)])
  }

  /**
   The session store's contract as a whole: a value set under a key reads back,
   setting one kind of value hides the other kind, and other keys are untouched.
   */
  lemma SetThenGet(s: Store, k: string, other: string, v: Int64, d: int)
    requires other != k
    ensures GetInt(SetInt(s, v, k), k) == Some(v)
    ensures GetDate(SetDate(s, d, k), k) == Some(d)
    ensures GetInt(SetDate(SetInt(s, v, k), d, k), k) == None
    ensures GetDate(SetInt(SetDate(s, d, k), v, k), k) == None
    ensures GetInt(SetInt(s, v, k), other) == GetInt(s, other)
    ensures GetDate(SetInt(s, v, k), other) == GetDate(s, other)
    ensures GetInt(SetDate(s, d, k), other) == GetInt(s, other)
    ensures GetDate(SetDate(s, d, k), other) == GetDate(s, other)
  {
  }
}

=== FILE: wrappers.dfy ===
/** Optional values, standing in for Swift's `T?`. */
module Wrappers {

  datatype Option<+T> = None | Some(value: T) {

    /** Swift's `x ?? default`. */
    function GetOr(default: T): T
    {
      match this
      case Some(v) => v
      case None => default
    }
  }
}
